=== FILE: README.md ===
# BHFD office portal: derived views, modelled in Dafny

The office portal is a browser page. It fetches a window of appointment
bookings from the office API and shows them in four ways: a searchable table,
a daily series for a line chart, a CSV export and a status breakdown. This
project models the parts of `app.js` that compute those views. The models work
on loosely typed booking records and are proved correct. They cover:

- **Field resolvers** (module `Records`):
  - `apptTypeLabel`, `insuranceLabel` and `statusBadge`;
  - the booked-date, name and date-of-birth projections.
- **Search predicate** (module `Search`): `renderTable` and `exportCsv` share it.
- **HTML escaper** (module `Html`): `escapeHtml`, with a reference
  one-pass definition and a decoder as partners.
- **CSV serialiser** (module `Csv`):
  - `csvEscape` and the row assembly of `exportCsv`;
  - a field, record and document reader as its partner. The reader takes
    quoted fields as section 2 of RFC 4180 does, and is lenient otherwise: it
    keeps a carriage return or a `"` inside an unquoted field as data.
- **Daily series** (module `Series`): `buildLineSeries`, as two loops over
  sequences.
- **Date helpers** (module `Calendar`):
  - `addDays`, `monthStart` and the `YYYY-MM-DD` text they print;
  - a Gregorian date type;
  - proofs that the string comparison `cur <= e` agrees with calendar order.
- **Date windows and request paths** (module `Ranges`):
  - the windows `applyRange` sets;
  - the trimmed date inputs and query string of `loadAll`;
  - `encodeURIComponent`, in module `Uri`, with a UTF-8 decoder as its inverse.
- **Page state** (module `Portal`, class `Page`):
  - the globals `AUTH_HEADER` and `cachedRows`, and the search box and date
    inputs;
  - the cells `renderTable` writes, the export file name, and the login and
    error rule of `api`.

Record fields are JavaScript values (`Js.Value`: `undefined`, `null`, a
boolean or a string), so the truthiness rules (`||`, `??`) and `String(x)` are
modelled as they are. `today` is passed in as a parameter.

Some behaviour of the code worth knowing:

- The daily series counts bookings by `appointment_date` (app.js:199).
- The fallback insurance label is "—" (app.js:117).
- The insurance alias chosen is the first *truthy* one, trimmed afterwards. A
  whitespace-only `insurance` therefore hides a real `carrier`
  (`Records.BlankAliasShadowsLaterOnes`).
- The bookings request asks for `limit=250` (app.js:351), while the file's
  header comment (app.js:4) says 50.

## Model

| member | source | states |
|---|---|---|
| `Js.Or` | app.js:111 | JavaScript `or`: the first operand when it is truthy, the second operand otherwise |
| `Js.Coalesce` | app.js:112 | `a ?? b`: the first operand unless it is null or undefined |
| `Js.OrEmpty` | app.js:98 | `String(x or "")`: empty exactly for a falsy value, otherwise the value's text |
| `Js.Lower` | app.js:98 | `toLowerCase` keeps the length and lowers each character |
| `Js.Trim` | app.js:114 | `trim` never lengthens the text and leaves no white space at either end |
| `Js.TrimStartSpaces` | app.js:114 | everything `trim` drops at the front is white space |
| `Js.TrimEndSpaces` | app.js:114 | everything `trim` drops at the back is white space |
| `Js.TrimBlank` | app.js:345 | `trim` gives the empty text exactly for white space only |
| `Js.TrimLeadingSpace` | app.js:148 | a leading white-space character does not change what `trim` gives |
| `Js.TrimTrailingSpace` | app.js:148 | a trailing white-space character does not change what `trim` gives |
| `Js.Take` | app.js:147 | `slice(0, n)`: the prefix of length `n`, or all of a shorter text |
| `Js.ReplaceFirst` | app.js:147 | `replace("T", " ")`: the first `T` becomes a space, every other character is kept, in place |
| `Js.ReplaceFirstAfter` | app.js:147 | the replacement happens after a prefix without `T` |
| `Js.Truthy` | app.js:72 | the values JavaScript treats as false: `undefined`, `null`, `false` and the empty string |
| `Js.ToStr` | app.js:98 | `String(x)` of each modelled value |
| `Js.Contains` | app.js:138 | `includes`: the query is a prefix of the text or of one of its suffixes |
| `Js.Join` | app.js:137 | `join(sep)`: the parts with the separator between each two |
| `Js.ContainsAt` | app.js:138 | `includes` holds exactly when the query occurs at some position |
| `Js.Map` | app.js:146 | `map` keeps the length and applies the function at every position |
| `Calendar.Next` | app.js:49 | the next day is a valid, later date |
| `Calendar.Prev` | app.js:49 | the previous day is a valid, earlier date |
| `Calendar.DaysInMonth` | app.js:47-54 | month lengths of the Gregorian calendar that `Date` uses: 29 exactly for February of a leap year, 30 exactly for April, June, September and November, 31 for the seven long months, 28 otherwise |
| `Calendar.AddDays` | app.js:47-54 | shifting a valid date by any number of days gives a valid date |
| `Calendar.PrevNext` | app.js:47-54 | the day before and the day after are inverse steps |
| `Calendar.NextIsImmediate` | app.js:47-54 | no valid date lies strictly between a day and the next one |
| `Calendar.AddDaysAdd` | app.js:47-54 | shifting by `a` then by `b` is shifting by `a + b` |
| `Calendar.AddDaysInverse` | app.js:47-54 | `addDays(addDays(d, k), -k)` is `d` |
| `Calendar.AddDaysForward` | app.js:47-54 | a positive shift moves strictly later |
| `Calendar.AddDaysInjective` | app.js:47-54 | different shifts of one date give different dates |
| `Calendar.Reach` | app.js:190-194 | every date from `s` onwards is reached from `s` by some number of one-day steps |
| `Calendar.FormatShape` | app.js:39-45 | a four-digit year prints as `YYYY-MM-DD`, month and day padded to two digits, ten characters in all |
| `Calendar.ParseDate` | app.js:48 | a text that parses is a valid date with a year of at most four digits |
| `Calendar.ParseFormat` | app.js:48-53 | reading back a printed date gives the date |
| `Calendar.FormatParse` | app.js:48-53 | printing a parsed `YYYY-MM-DD` text gives the text back |
| `Calendar.FormatInjective` | app.js:50-53 | different dates print differently |
| `Calendar.AddDaysText` | app.js:47-54 | `addDays` on the text: when the shifted date has a four-digit year, the result reads back as that date |
| `Calendar.AddDaysTextInverse` | app.js:47-54 | shifting the text by `k` and then by `-k` gives the text back |
| `Calendar.MonthStart` | app.js:56-61 | the first of the month is a valid date no later than the day |
| `Calendar.MonthStartSpan` | app.js:56-61 | the day is `day - 1` days after the first of its month |
| `Calendar.MonthStartText` | app.js:56-61 | `monthStart` prints the first of the same month and reads back as it |
| `Calendar.Format` | app.js:50-53 | the text `${y}-${MM}-${DD}` of a date; `FormatShape`, `ParseFormat` and `FormatOrder` state what it gives |
| `Calendar.LexLess` | app.js:190 | JavaScript's `<` on strings: character-by-character order, a proper prefix first |
| `Calendar.LexLe` | app.js:190 | JavaScript's `<=` on strings |
| `Calendar.FormatOrder` | app.js:190 | for four-digit years, `<` and `<=` on printed dates are calendar order, in both directions |
| `Calendar.FormatOrderStrict` | app.js:190 | strict string order is strict calendar order |
| `Calendar.DigitsOrder` | app.js:42-43 | zero-padded numerals of one width sort as the numbers do |
| `Calendar.NextFourDigit` | app.js:193 | stepping from a day before a four-digit-year end that is not 9999-12-31 keeps a four-digit year |
| `Records.ApptTypeLabel` | app.js:97-104 | the four codes, in any letter case, map to their labels; any other value shows as its own text, a missing one as "" |
| `Records.ApptTypeLabelIdempotent` | app.js:97-104 | labelling a label changes nothing |
| `Records.ApptTypeLabelExamples` | app.js:97-104 | `ADULT_CLEANING` is recognised, an unknown code passes through, a missing type is empty |
| `Records.InsuranceAlias` | app.js:111 | the first truthy of `insurance`, `insurance_carrier`, `insCarrier`, `carrier`, or `""` |
| `Records.NoInsuranceFlag` | app.js:112 | `no_insurance` unless it is null or undefined, then `noInsurance` |
| `Records.InsuranceLabel` | app.js:114-117 | the label is the trimmed alias, "Self-Pay" or "—" |
| `Records.InsurancePrecedence` | app.js:111-114 | a truthy, non-blank alias wins over every later one, and shows trimmed |
| `Records.SelfPayRule` | app.js:112-117 | with a blank alias, "Self-Pay" exactly when the flag that `??` picks is `true`; "—" otherwise |
| `Records.BlankAliasShadowsLaterOnes` | app.js:111-117 | a whitespace-only `insurance` hides every later alias |
| `Records.InsuranceLabelTrimmed` | app.js:114-117 | the insurance cell is never blank and never starts or ends with white space |
| `Records.StatusBadge` | app.js:120-124 | `statusBadge`; `StatusBadgeSpec` states which badge it gives |
| `Records.StatusBadgeSpec` | app.js:120-124 | the New Patient badge exactly when the lower-cased status contains "new", Existing exactly otherwise |
| `Records.NewPatientExamples` | app.js:120-124 | "Renewal" and "NEW" count as new |
| `Records.ExistingPatientExamples` | app.js:120-124 | "existing", the empty status and a missing one give Existing |
| `Records.BookedDate` | app.js:147 | the booked value has at most ten characters |
| `Records.BookedOfTimestamp` | app.js:147 | for an ISO instant the booked value is its calendar date |
| `Records.BookedOfPlain` | app.js:147 | a `created_at` text of at most ten characters without `T` is shown as it is |
| `Records.PatientName` | app.js:148 | the name is empty when both parts are missing, and never starts or ends with white space |
| `Records.PatientNameOf` | app.js:148 | two parts without border white space show as `first last`; with the last name missing the name is the trimmed first name, and the other way round |
| `Records.DobText` | app.js:149 | at most ten characters, a prefix of `patient_dob`, or of `dob` when `patient_dob` is falsy |
| `Records.DobOfDate` | app.js:149 | a stored `YYYY-MM-DD` date of birth, with anything after it, shows as that date |
| `Search.Blob` | app.js:133-137 | the nine searched fields, each as lower-cased `String(x or "")`, joined with spaces |
| `Search.Matches` | app.js:138 | a row matches when its blob contains the query |
| `Search.Filter` | app.js:129-139 | all rows for an empty query, the matching ones otherwise; `FilterSpec` states the result |
| `Search.Query` | app.js:129 | the query is empty exactly when the search box is blank |
| `Search.FilterMatching` | app.js:132-139 | only matching rows of the input, no more of them than there are rows |
| `Search.FilterMatchingSpec` | app.js:132-139 | the filtered rows are a subsequence of the rows, are exactly the rows whose blob contains the query, and number as many as match |
| `Search.FilterSpec` | app.js:129-139 | the same for the filter with the empty-query shortcut |
| `Search.EmptyQueryMatchesAll` | app.js:130-131 | every blob contains the empty query, so the shortcut changes nothing |
| `Search.BlankSearchShowsAll` | app.js:129-131 | a blank search box shows every cached row, in order |
| `Search.FilterIdempotent` | app.js:285-295 | filtering the filtered rows again with the same query changes nothing |
| `Search.FilterNarrows` | app.js:129-139 | a query that contains another shows a subsequence of its rows |
| `Html.EscapeHtml` | app.js:171-178 | the five replacement passes, `&` first; `EscapeHtmlSpec` and `EscapeHtmlIsPerChar` state what it computes |
| `Html.EscapeHtmlSpec` | app.js:171-178 | escaped text holds no `<`, `>`, `"` or `'`, and decodes back to the input |
| `Html.EscapeHtmlIsPerChar` | app.js:171-178 | the five sequential passes equal one pass that replaces each character by its entity |
| `Html.EscapeHtmlConcat` | app.js:171-178 | escaping distributes over concatenation |
| `Html.EscapeOneChar` | app.js:173-177 | each character escapes to its own entity |
| `Html.UnescapeEscapeChars` | app.js:171-178 | decoding the per-character escape gives the text back |
| `Html.AmpersandOrderMatters` | app.js:173 | with `&` replaced last, `<` would come out double-escaped as `&amp;lt;` |
| `Csv.CsvEscape` | app.js:336-340 | a value without `"`, `,` or line feed is unchanged; any other is wrapped in quotes |
| `Csv.DoubleQuotes` | app.js:338 | doubling quotes never shortens the text |
| `Csv.UndoubleDoubleQuotes` | app.js:338 | un-doubling the doubled quotes gives the text back |
| `Csv.CsvEscapeInverse` | app.js:336-340 | stripping the outer quotes and un-doubling gives back every value |
| `Csv.CarriageReturnNotQuoted` | app.js:338 | a carriage return alone does not cause quoting |
| `Csv.FieldRoundTrip` | app.js:336-340 | an escaped value reads back as one field, whatever follows the field's end |
| `Csv.RecordRoundTrip` | app.js:320-322 | a line of escaped values joined by commas reads back as those values |
| `Csv.DocumentRoundTrip` | app.js:308-325 | lines joined with line feeds read back as the records |
| `Csv.CsvFields` | app.js:311-320 | each exported row has eight values |
| `Csv.CsvLine` | app.js:320-322 | a line: the values through `csvEscape`, joined with commas |
| `Csv.ExportText` | app.js:308-325 | the header line, then one line per row, joined with line feeds; `ExportRoundTrip` states what it reads back as |
| `Csv.HeaderLine` | app.js:297-308 | the header needs no quoting, so `header.join(",")` is its CSV line |
| `Csv.ExportDocument` | app.js:308-325 | the loop that pushes one line per row builds the export document |
| `Csv.ExportRoundTrip` | app.js:297-325 | the lenient reader of module `Csv` reads the document back as the header followed by each row's eight values, in row order |
| `Series.DayKey` | app.js:199 | the bucket key is at most ten characters, a prefix of `appointment_date` |
| `Series.DayRun` | app.js:187-194 | the run of `n` printed consecutive days from a start |
| `Series.RunAscending` | app.js:190-194 | the labels strictly ascend as strings |
| `Series.RunDistinct` | app.js:187-194 | no label repeats |
| `Series.RunCovers` | app.js:187-194 | every day from the start to the end is a label |
| `Series.RunConsecutive` | app.js:193 | each label is `addDays` of the one before it |
| `Series.RunLengthUnique` | app.js:187-194 | only one number of days ends a run on a given end |
| `Series.DayLabels` | app.js:186-194 | the `while` loop yields exactly the days from start to end, none when the start is after the end |
| `Series.DaysBetweenDistinct` | app.js:196 | the labels are distinct and non-empty, so the index map is well defined |
| `Series.WindowStart` | app.js:183 | the start is the given one, or 29 days before today |
| `Series.WindowEnd` | app.js:184 | the end is the given one, or today |
| `Series.TallyStep` | app.js:198-201 | one booking adds one to its own day's count and leaves the other counts alone |
| `Series.CountByDay` | app.js:196-202 | each count is the number of bookings keyed on its label; the total is the number keyed on any label; other dates are skipped |
| `Series.BuildLineSeries` | app.js:180-205 | the labels are the days of the window and the counts are the tally of the bookings on them |
| `Uri.Utf8` | app.js:347 | the shortest UTF-8 form: one byte below U+0080, two below U+0800, three below U+10000, four above |
| `Uri.EncodeURIComponent` | app.js:347 | each character kept when unreserved, otherwise its UTF-8 bytes as upper-case `%XX`; `EncodeRoundTrip` and `EncodeSafe` state what it gives |
| `Uri.EncodeUnreserved` | app.js:347 | text made only of unreserved characters encodes to itself |
| `Uri.EncodeSafe` | app.js:347 | the encoding holds only unreserved characters and `%` |
| `Uri.EncodeBytes` | app.js:347 | the `%XX` escapes stand for the UTF-8 bytes of the text |
| `Uri.Utf8RoundTrip` | app.js:347 | decoding the UTF-8 bytes of a text gives the text back |
| `Uri.EncodeRoundTrip` | app.js:347 | decoding the encoding gives the text back |
| `Uri.EncodeInjective` | app.js:347 | different texts encode differently |
| `Ranges.RangeFor` | app.js:375-389 | a known mode puts today in the end input; any other mode leaves both inputs alone |
| `Ranges.TodayWindow` | app.js:377-379 | "today" sets start equal to end, both today |
| `Ranges.MonthToDateWindow` | app.js:380-382 | "mtd" starts on day 1 of today's month, which does not sort after the end |
| `Ranges.DaysWindow` | app.js:384-388 | a number `N >= 1` gives a window that ends today and starts `N - 1` days earlier |
| `Ranges.DaysWindowLabels` | app.js:384-388 | the series over that window has exactly `N` days |
| `Ranges.EmptyDaysWindow` | app.js:384-388 | `N <= 0` puts the start after the end, so the series is empty |
| `Ranges.LoadRange` | app.js:345-346 | the trimmed inputs are never longer, and are empty exactly when the input is white space only |
| `Ranges.LoadRangeQuery` | app.js:345-347 | no range is sent exactly when one of the inputs is blank; inputs without border white space are sent as typed |
| `Ranges.QueryString` | app.js:347 | the range is sent exactly when both inputs are non-empty |
| `Ranges.BookingsPath` | app.js:351 | `/office/bookings`, then the query string and `&` or a bare `?`, then `limit=250`; `BookingsParams` states its parameters |
| `Ranges.AnalyticsPath` | app.js:352 | `/office/analytics` followed by the query string; `AnalyticsParams` states its parameters |
| `Ranges.DateTextUnencoded` | app.js:347 | a printed date needs no percent escapes |
| `Ranges.BookingsParams` | app.js:347-351 | the bookings request carries `start` and `end` when both are set, and always `limit=250` last |
| `Ranges.AnalyticsParams` | app.js:347-352 | the analytics request carries `start` and `end` when both are set, and nothing otherwise |
| `Portal.DashIfEmpty` | app.js:149-158 | a text or "—": "—" for the empty text, the text itself otherwise |
| `Portal.TableValues` | app.js:147-154 | eight values per table row |
| `Portal.TableCells` | app.js:156-167 | eight cells per table row |
| `Portal.EscapedCell` | app.js:159-165 | an escaped cell holds no markup character and decodes to its value |
| `Portal.BookedCellRaw` | app.js:147-158 | the booked cell is not escaped: a short `created_at` without `T` appears in the cell as it is, `<` and `>` included |
| `Portal.TableCellsSafe` | app.js:156-167 | each of the six escaped cells of a row (all but the booked date and the badge) is safe and decodes to its value |
| `Portal.ValuesFromFields` | app.js:147-154 | the table values are the export's fields, with "—" for empty dates and an empty time and the badge for the status |
| `Portal.CellMatchesExport` | app.js:147-154 | each cell other than the badge shows the exported value, or "—" where a date or the time is empty |
| `Portal.TableMatchesExport` | app.js:146-165 | every escaped cell decodes to the exported value, or "—" for an empty date or time; the booked cell is the exported one or "—" |
| `Portal.ApiCall` | app.js:71-95 | data comes back only with a header and a non-401 reply; a 401 clears the header |
| `Portal.StoredHeaderReused` | app.js:72-75 | a stored header is sent as it is, and the prompt makes no difference |
| `Portal.CancelledLogin` | app.js:72-75 | with no header and a cancelled prompt the call throws "Login cancelled." and stores nothing |
| `Portal.UnauthorizedForgets` | app.js:85-88 | a 401 throws "Unauthorized (wrong credentials)." and forgets the header; every other reply keeps it |
| `Portal.ApiSucceeds` | app.js:90-94 | data exactly when a header was sent, the reply was not 401 and its JSON body has a truthy `ok`; the data is that body |
| `Portal.ApiErrorMessage` | app.js:91-93 | a failed reply throws its truthy `error`, or `API error (<status>)` |
| `Portal.ExportFileName` | app.js:329 | the name is `bhfd_online_bookings_`, then today's date text, then `.csv` |
| `Portal.ExportFileNameDate` | app.js:329 | for a four-digit year the name has 35 characters, and its characters 21 to 30 read back as today |
| `Portal.Page.constructor` | app.js:409-413 | the page opens with no header, no rows, an empty search, and the last 30 days in the date inputs |
| `Portal.Page.RenderTable` | app.js:126-168 | caches the rows and returns the cells of the rows that pass the search, in cached order, changing nothing else |
| `Portal.Page.SearchInput` | app.js:402 | typing re-renders the cached rows with the new query and keeps the cache |
| `Portal.Page.ExportCsv` | app.js:284-329 | exports exactly the rows the table shows, under the dated file name |
| `Portal.Page.ApplyRange` | app.js:375-389 | the date inputs become the window of the mode; nothing else changes |
| `Portal.Page.Api` | app.js:71-95 | the call's outcome and the stored header after it are those of `ApiCall` |
| `Portal.Page.Login` | app.js:394-396 | the login button forgets the header and leaves the cached rows, the search and the date inputs as they are until the reload |

## Left out

- DOM output is not modelled: the `<tr>`/`<td>` markup, `innerHTML`, the "No matching bookings." row, `setStatus`, the event wiring and the element lookups. The table is modelled as its cell texts. An empty filter result gives no rows.
- Chart.js (`renderLineChart`, `renderPieChart`) and the analytics status counts fed to the pie are foreign library calls and number parsing of API data.
- `fetch`, `res.json()` and `Promise.all` in `loadAll` are I/O and concurrency. `api` takes the reply's status and parsed body as parameters; `None` stands for a body that is not JSON. The order in which `loadAll` calls the table, the series and the charts, and its `catch`, are not modelled.
- `promptLogin` and `btoa` are a browser prompt and a foreign encoder: the header the prompt produces is a parameter of `api`.
- `todayYYYYMMDD` reads the clock: today is a parameter, and its text is `Calendar.Format`.
- `Portal.Page.ApplyRange` sets the inputs but does not model the `loadAll()` that follows.
- The Blob, object URL and anchor click of the download are not modelled. `Portal.Page.ExportCsv` returns the document and the file name.
- Record fields hold `undefined`, `null`, booleans and strings. Numbers and objects in a record are not modelled.
- `String.prototype.toLowerCase` is modelled on ASCII letters only.
- `Number(mode)` in `applyRange`:
  - a finite numeric mode is modelled as an integer;
  - fractional day counts and the numeric text forms `Number` accepts are not modelled;
  - every mode `Number` maps to a non-finite value is one case.
- `Calendar.AddDaysText` and `Calendar.MonthStartText` require text that reads as a valid `YYYY-MM-DD` date. The `Invalid Date` behaviour of `new Date` on other text is not modelled.
- `Series.BuildLineSeries` requires date inputs with four-digit years. It also requires an end before 9999-12-31: the day after that no longer prints as a four-digit-year date sorting after the end, so the source loop runs past the end date.
- `Calendar.AddDays` and `Calendar.AddDaysText` work on unbounded dates. JavaScript's `Date` covers only about 100,000,000 days either side of 1970; beyond that `addDays` prints `NaN-NaN-NaN`, and so does `applyRange` with a huge numeric mode (`Ranges.RangeFor` with `Days(n)`). The model prints a distant date instead.
- `Portal.Page.RenderTable` takes a sequence of bookings: the `Array.isArray(rows) ? rows : []` guard of app.js:127 for a non-array argument is not modelled.
- `Portal.Page.Login` does not model the `setStatus` and `loadAll()` that follow (app.js:396-397): the reload prompts again, fetches, and replaces the cached rows.
- `Records.InsuranceLabel` states only that the label is one of the three. The exact choice is stated by `Records.InsurancePrecedence` and `Records.SelfPayRule`.
- `Records.BookedDate` states only the length bound in general. The exact value is stated for ISO instants by `Records.BookedOfTimestamp`.
- `Records.DobText` states the prefix and length in general. The exact value for stored dates is stated by `Records.DobOfDate`.
- `Js.Take` and `Calendar.LexLess` count and compare Unicode scalar values, whereas JavaScript's `slice` and `<` count and compare UTF-16 code units. The two agree on text below U+10000, which includes every `YYYY-MM-DD` date. Above it they differ: `slice(0, 10)` of six emoji keeps five and can cut a surrogate pair, which the model cannot represent, and JavaScript sorts U+10000 and above before U+E000–U+FFFF.
- `Csv.ExportRoundTrip` is proved against the lenient reader of module `Csv`. `csvEscape` leaves a lone carriage return unquoted (app.js:338), so a strict RFC 4180 reader, which allows no CR in an unquoted field, would split or reject a record whose value holds one.
- `Uri.EncodeRoundTrip`'s decoder accepts overlong UTF-8 forms, so it is a partner of the encoder rather than a full `decodeURIComponent`. Text is a sequence of Unicode scalar values, so the lone surrogates on which `encodeURIComponent` throws cannot occur in the model.

=== FILE: calendar.dfy ===
/** Calendar dates as the portal handles them: `YYYY-MM-DD` strings that
    `addDays` and `monthStart` turn into proleptic Gregorian dates and back,
    and that `buildLineSeries` compares with JavaScript's string `<=`. */
module Calendar {
  import opened Js

  datatype Date = Date(year: int, month: int, day: int)

  predicate IsLeapYear(y: int) {
    y % 4 == 0 && (y % 100 != 0 || y % 400 == 0)
  }

  function DaysInMonth(y: int, m: int): (n: int)
    requires 1 <= m <= 12
    ensures 28 <= n <= 31
    ensures n == 29 <==> m == 2 && IsLeapYear(y)
    ensures n == 31 <==> m in {1, 3, 5, 7, 8, 10, 12}
    ensures n == 30 <==> m in {4, 6, 9, 11}
  {
    if m == 2 then (if IsLeapYear(y) then 29 else 28)
    else if m == 4 || m == 6 || m == 9 || m == 11 then 30
    else 31
  }

  /** A real day of the Gregorian calendar. */
  predicate Valid(d: Date) {
    1 <= d.month <= 12 && 1 <= d.day <= DaysInMonth(d.year, d.month)
  }

  /** Chronological order: `a` is a strictly earlier day than `b`. */
  predicate Before(a: Date, b: Date) {
    a.year < b.year
    || (a.year == b.year && (a.month < b.month || (a.month == b.month && a.day < b.day)))
  }

  predicate NotAfter(a: Date, b: Date) {
    a == b || Before(a, b)
  }

  /** A rank that grows with the calendar; used as a termination measure. */
  function Ord(d: Date): int {
    d.year * 372 + d.month * 31 + d.day
  }

  lemma OrdMonotone(a: Date, b: Date)
    requires Valid(a) && Valid(b) && Before(a, b)
    ensures Ord(a) < Ord(b)
  {
  }

  /** The following day: JavaScript's `d.setDate(d.getDate() + 1)`. */
  function Next(d: Date): (r: Date)
    requires Valid(d)
    ensures Valid(r) && Before(d, r)
  {
    if d.day < DaysInMonth(d.year, d.month) then Date(d.year, d.month, d.day + 1)
    else if d.month < 12 then Date(d.year, d.month + 1, 1)
    else Date(d.year + 1, 1, 1)
  }

  /** The preceding day: JavaScript's `d.setDate(d.getDate() - 1)`. */
  function Prev(d: Date): (r: Date)
    requires Valid(d)
    ensures Valid(r) && Before(r, d)
  {
    if d.day > 1 then Date(d.year, d.month, d.day - 1)
    else if d.month > 1 then Date(d.year, d.month - 1, DaysInMonth(d.year, d.month - 1))
    else Date(d.year - 1, 12, 31)
  }

  /** No day lies strictly between `d` and `Next(d)`. */
  lemma NextIsImmediate(d: Date, x: Date)
    requires Valid(d) && Valid(x) && Before(d, x)
    ensures NotAfter(Next(d), x)
  {
  }

  lemma PrevNext(d: Date)
    requires Valid(d)
    ensures Prev(Next(d)) == d && Next(Prev(d)) == d
  {
  }

  /** `addDays(d, k)`: `k` steps forwards (or `-k` backwards) through the calendar. */
  function AddDays(d: Date, k: int): (r: Date)
    requires Valid(d)
    ensures Valid(r)
    decreases if k >= 0 then k else -k
  {
    if k == 0 then d
    else if k > 0 then AddDays(Next(d), k - 1)
    else AddDays(Prev(d), k + 1)
  }

  lemma {:induction false} AddDaysForwardStep(d: Date, k: int)
    requires Valid(d) && k >= 0
    ensures AddDays(d, k + 1) == Next(AddDays(d, k))
    decreases k
  {
    if k > 0 {
      AddDaysForwardStep(Next(d), k - 1);
    }
  }

  lemma {:induction false} AddDaysBackwardStep(d: Date, k: int)
    requires Valid(d) && k >= 0
    ensures AddDays(d, -k - 1) == Prev(AddDays(d, -k))
    decreases k
  {
    if k > 0 {
      AddDaysBackwardStep(Prev(d), k - 1);
    }
  }

  /** One more day forwards is one `Next` more, for every offset. */
  lemma AddDaysStep(d: Date, k: int)
    requires Valid(d)
    ensures AddDays(d, k + 1) == Next(AddDays(d, k))
    ensures AddDays(d, k - 1) == Prev(AddDays(d, k))
  {
    if k >= 0 {
      AddDaysForwardStep(d, k);
      if k > 0 {
        AddDaysForwardStep(d, k - 1);
        PrevNext(AddDays(d, k - 1));
      } else {
        AddDaysBackwardStep(d, 0);
      }
    } else {
      AddDaysBackwardStep(d, -k);
      AddDaysBackwardStep(d, -k - 1);
      PrevNext(AddDays(d, k + 1));
    }
  }

  /** Adding `a` days and then `b` days adds `a + b` days. */
  lemma {:induction false} AddDaysAdd(d: Date, a: int, b: int)
    requires Valid(d)
    ensures AddDays(AddDays(d, a), b) == AddDays(d, a + b)
    decreases if b >= 0 then b else -b
  {
    if b > 0 {
      AddDaysAdd(d, a, b - 1);
      AddDaysStep(AddDays(d, a), b - 1);
      AddDaysStep(d, a + b - 1);
    } else if b < 0 {
      AddDaysAdd(d, a, b + 1);
      AddDaysStep(AddDays(d, a), b + 1);
      AddDaysStep(d, a + b + 1);
    }
  }

  /** `addDays(addDays(d, k), -k)` is `d`. */
  lemma AddDaysInverse(d: Date, k: int)
    requires Valid(d)
    ensures AddDays(AddDays(d, k), -k) == d
  {
    AddDaysAdd(d, k, -k);
  }

  /** Going forwards a positive number of days lands on a later day. */
  lemma {:induction false} AddDaysForward(d: Date, k: int)
    requires Valid(d) && k > 0
    ensures Before(d, AddDays(d, k))
    decreases k
  {
    if k > 1 {
      AddDaysForward(Next(d), k - 1);
    }
  }

  /** Different offsets from one day give different days. */
  lemma AddDaysInjective(d: Date, a: int, b: int)
    requires Valid(d) && AddDays(d, a) == AddDays(d, b)
    ensures a == b
  {
    if a < b {
      AddDaysAdd(d, a, b - a);
      AddDaysForward(AddDays(d, a), b - a);
    } else if b < a {
      AddDaysAdd(d, b, a - b);
      AddDaysForward(AddDays(d, b), a - b);
    }
  }

  /** Every day not before `s` is reached from `s` by some number of steps forwards. */
  lemma {:induction false} Reach(s: Date, x: Date)
    requires Valid(s) && Valid(x) && NotAfter(s, x)
    ensures exists k: nat :: AddDays(s, k) == x
    decreases Ord(x) - Ord(s)
  {
    if s == x {
      assert AddDays(s, 0) == x;
    } else {
      NextIsImmediate(s, x);
      OrdMonotone(s, Next(s));
      Reach(Next(s), x);
      var k: nat :| AddDays(Next(s), k) == x;
      assert AddDays(s, k + 1) == x;
    }
  }

  /** `monthStart(d)`: the first day of `d`'s month. */
  function MonthStart(d: Date): (r: Date)
    requires Valid(d)
    ensures Valid(r) && NotAfter(r, d)
  {
    Date(d.year, d.month, 1)
  }

  lemma {:induction false} AddDaysWithinMonth(d: Date, k: nat)
    requires Valid(d) && d.day == 1 && k < DaysInMonth(d.year, d.month)
    ensures AddDays(d, k) == Date(d.year, d.month, 1 + k)
  {
    if k > 0 {
      AddDaysWithinMonth(d, k - 1);
      AddDaysStep(d, k - 1);
    }
  }

  /** Counting from the first of the month, `d.day - 1` days later is `d`:
      a month-to-date window holds exactly `d.day` days. */
  lemma MonthStartSpan(d: Date)
    requires Valid(d)
    ensures AddDays(MonthStart(d), d.day - 1) == d
  {
    AddDaysWithinMonth(MonthStart(d), d.day - 1);
  }

  // ---------------------------------------------------------------------------
  // Text form: `${y}-${MM}-${DD}`, as `addDays`, `monthStart` and
  // `todayYYYYMMDD` print a date.

  predicate IsDigit(c: char) {
    '0' <= c <= '9'
  }

  predicate AllDigits(s: string) {
    forall i :: 0 <= i < |s| ==> IsDigit(s[i])
  }

  function DigitChar(n: int): (c: char)
    requires 0 <= n <= 9
    ensures IsDigit(c)
  {
    (48 + n) as char
  }

  function DigitValue(c: char): (n: int)
    requires IsDigit(c)
    ensures 0 <= n <= 9 && DigitChar(n) == c
  {
    c as int - 48
  }

  function Pow10(w: nat): (p: nat)
    ensures p >= 1
  {
    if w == 0 then 1 else 10 * Pow10(w - 1)
  }

  /** The last `w` decimal digits of `n`, zero-padded: `String(n).padStart(w, "0")`
      for `n < 10^w`. */
  function Digits(n: nat, w: nat): (r: string)
    ensures |r| == w && AllDigits(r)
  {
    if w == 0 then "" else Digits(n / 10, w - 1) + [DigitChar(n % 10)]
  }

  /** `String(n)` for a natural number. */
  function Decimal(n: nat): (r: string)
    ensures |r| >= 1 && AllDigits(r)
  {
    if n < 10 then [DigitChar(n)] else Decimal(n / 10) + [DigitChar(n % 10)]
  }

  /** The value of a string of decimal digits. */
  function Val(s: string): nat
    requires AllDigits(s)
  {
    if s == [] then 0 else 10 * Val(s[..|s| - 1]) + DigitValue(s[|s| - 1])
  }

  /** `${y}` for a year. */
  function YearText(y: int): string {
    if y < 0 then "-" + Decimal(-y) else Decimal(y)
  }

  /** The text the portal's date helpers produce for a date. */
  function Format(d: Date): string
    requires Valid(d)
  {
    YearText(d.year) + ("-" + (Digits(d.month, 2) + ("-" + Digits(d.day, 2))))
  }

  /** Reads a `YYYY-MM-DD` date input value; `None` for anything else. */
  function ParseDate(s: string): (r: Option<Date>)
    ensures r.Some? ==> Valid(r.value) && 0 <= r.value.year <= 9999
  {
    if |s| == 10 && s[4] == '-' && s[7] == '-'
       && AllDigits(s[..4]) && AllDigits(s[5..7]) && AllDigits(s[8..])
       && Valid(Date(Val(s[..4]), Val(s[5..7]), Val(s[8..])))
    then
      ValBound(s[..4]);
      Some(Date(Val(s[..4]), Val(s[5..7]), Val(s[8..])))
    else None
  }

  /** A date whose year has four digits: its text is exactly ten characters. */
  predicate FourDigitYear(d: Date) {
    Valid(d) && 1000 <= d.year <= 9999
  }

  lemma {:induction false} ValBound(s: string)
    requires AllDigits(s)
    ensures Val(s) < Pow10(|s|)
  {
    if s != [] {
      ValBound(s[..|s| - 1]);
    }
  }

  lemma {:induction false} ValOfDigits(n: nat, w: nat)
    requires n < Pow10(w)
    ensures Val(Digits(n, w)) == n
  {
    if w > 0 {
      ValOfDigits(n / 10, w - 1);
      var r := Digits(n, w);
      assert r[..w - 1] == Digits(n / 10, w - 1);
    }
  }

  lemma {:induction false} DigitsOfVal(s: string)
    requires AllDigits(s)
    ensures Digits(Val(s), |s|) == s
  {
    if s != [] {
      var p := s[..|s| - 1];
      DigitsOfVal(p);
      assert Val(s) / 10 == Val(p) && Val(s) % 10 == DigitValue(s[|s| - 1]);
      assert s == p + [s[|s| - 1]];
    }
  }

  lemma DecimalFourDigits(y: int)
    requires 1000 <= y <= 9999
    ensures Decimal(y) == Digits(y, 4)
  {
    var a, b, c := y / 10, y / 10 / 10, y / 10 / 10 / 10;
    assert 100 <= a <= 999 && 10 <= b <= 99 && 1 <= c <= 9;
    assert Decimal(c) == [DigitChar(c)] == Digits(c, 1) by {
      assert c / 10 == 0 && c % 10 == c;
    }
    assert Decimal(b) == Decimal(c) + [DigitChar(b % 10)];
    assert Digits(b, 2) == Digits(c, 1) + [DigitChar(b % 10)];
    assert Decimal(a) == Decimal(b) + [DigitChar(a % 10)];
    assert Digits(a, 3) == Digits(b, 2) + [DigitChar(a % 10)];
  }

  lemma FormatShape(d: Date)
    requires FourDigitYear(d)
    ensures Format(d) == Digits(d.year, 4) + ("-" + (Digits(d.month, 2) + ("-" + Digits(d.day, 2))))
    ensures |Format(d)| == 10
  {
    DecimalFourDigits(d.year);
  }

  /** Reading back a printed date gives the date. */
  lemma ParseFormat(d: Date)
    requires FourDigitYear(d)
    ensures ParseDate(Format(d)) == Some(d)
  {
    FormatShape(d);
    var s := Format(d);
    assert s[..4] == Digits(d.year, 4);
    assert s[5..7] == Digits(d.month, 2);
    assert s[8..] == Digits(d.day, 2);
    ValOfDigits(d.year, 4);
    ValOfDigits(d.month, 2);
    ValOfDigits(d.day, 2);
  }

  /** Printing a date that was read from a date input gives back the input. */
  lemma FormatParse(s: string)
    requires ParseDate(s).Some? && ParseDate(s).value.year >= 1000
    ensures Format(ParseDate(s).value) == s
  {
    var d := ParseDate(s).value;
    var y, m, dd := s[..4], s[5..7], s[8..];
    assert AllDigits(y) && AllDigits(m) && AllDigits(dd);
    assert d == Date(Val(y), Val(m), Val(dd));
    DigitsOfVal(y);
    DigitsOfVal(m);
    DigitsOfVal(dd);
    FormatShape(d);
    DateTextSplit(s);
  }

  lemma DateTextSplit(s: string)
    requires |s| == 10 && s[4] == '-' && s[7] == '-'
    ensures s == s[..4] + ("-" + (s[5..7] + ("-" + s[8..])))
  {
  }

  lemma FormatInjective(a: Date, b: Date)
    requires FourDigitYear(a) && FourDigitYear(b) && Format(a) == Format(b)
    ensures a == b
  {
    ParseFormat(a);
    ParseFormat(b);
  }

  /** `addDays(dateStr, k)` on a date input value: read the date, move it
      `k` days, print it. */
  function AddDaysText(s: string, k: int): (r: string)
    requires ParseDate(s).Some?
    ensures FourDigitYear(AddDays(ParseDate(s).value, k)) ==> ParseDate(r) == Some(AddDays(ParseDate(s).value, k))
  {
    var d := AddDays(ParseDate(s).value, k);
    if FourDigitYear(d) then ParseFormat(d); Format(d) else Format(d)
  }

  lemma DayOne()
    ensures Digits(1, 2) == "01"
  {
    assert Digits(0, 1) == [DigitChar(0)];
  }

  /** `monthStart(dateStr)`: `${y}-${MM}-01` for the date's year and month,
      which is the first of that month printed. */
  function MonthStartText(s: string): (r: string)
    requires ParseDate(s).Some?
    ensures r == Format(MonthStart(ParseDate(s).value))
    ensures ParseDate(s).value.year >= 1000 ==> ParseDate(r) == Some(MonthStart(ParseDate(s).value))
  {
    var d := ParseDate(s).value;
    DayOne();
    if d.year >= 1000 then
      ParseFormat(MonthStart(d));
      YearText(d.year) + ("-" + (Digits(d.month, 2) + "-01"))
    else
      YearText(d.year) + ("-" + (Digits(d.month, 2) + "-01"))
  }

  /** Moving a date input value `k` days and then `-k` days gives it back,
      as long as the intermediate date still prints with four digits. */
  lemma AddDaysTextInverse(s: string, k: int)
    requires ParseDate(s).Some? && ParseDate(s).value.year >= 1000
    requires FourDigitYear(AddDays(ParseDate(s).value, k))
    ensures AddDaysText(AddDaysText(s, k), -k) == s
  {
    var d := ParseDate(s).value;
    AddDaysInverse(d, k);
    FormatParse(s);
  }

  /** A day between two four-digit-year days has a four-digit year. */
  lemma BetweenFourDigit(a: Date, x: Date, b: Date)
    requires FourDigitYear(a) && FourDigitYear(b) && Valid(x) && NotAfter(a, x) && NotAfter(x, b)
    ensures FourDigitYear(x)
  {
  }

  /** The day after a day not later than `e` still has a four-digit year,
      unless `e` is the last day of year 9999. */
  lemma NextFourDigit(x: Date, e: Date)
    requires FourDigitYear(x) && FourDigitYear(e) && NotAfter(x, e) && e != Date(9999, 12, 31)
    ensures FourDigitYear(Next(x))
  {
  }

  // ---------------------------------------------------------------------------
  // JavaScript's relational operators on strings: character-by-character
  // lexicographic order, a proper prefix being smaller. JavaScript compares
  // UTF-16 code units, which order the same way below U+10000.

  predicate LexLess(a: string, b: string)
    decreases |a|
  {
    if b == [] then false
    else if a == [] then true
    else if a[0] != b[0] then a[0] < b[0]
    else LexLess(a[1..], b[1..])
  }

  /** `a <= b` on strings. */
  predicate LexLe(a: string, b: string) {
    !LexLess(b, a)
  }

  lemma {:induction false} LexLessIrreflexive(a: string)
    ensures !LexLess(a, a)
  {
    if a != [] {
      LexLessIrreflexive(a[1..]);
    }
  }

  /** Comparing two strings that start with equally long parts compares the
      parts first. */
  lemma {:induction false} LexLessConcat(p: string, s: string, q: string, t: string)
    requires |p| == |q|
    ensures LexLess(p + s, q + t) <==> LexLess(p, q) || (p == q && LexLess(s, t))
  {
    if p == [] {
      assert p + s == s && q + t == t;
    } else {
      assert (p + s)[0] == p[0] && (q + t)[0] == q[0];
      assert (p + s)[1..] == p[1..] + s && (q + t)[1..] == q[1..] + t;
      LexLessConcat(p[1..], s, q[1..], t);
      if p[0] == q[0] {
        assert p == q <==> p[1..] == q[1..] by {
          if p[1..] == q[1..] {
            assert p == [p[0]] + p[1..];
            assert q == [q[0]] + q[1..];
          }
        }
      } else {
        LexLessIrreflexive(p);
      }
    }
  }

  /** On zero-padded numerals of equal width, string order is numeric order. */
  lemma {:induction false} DigitsOrder(x: nat, y: nat, w: nat)
    requires x < Pow10(w) && y < Pow10(w)
    ensures LexLess(Digits(x, w), Digits(y, w)) <==> x < y
  {
    if w == 0 {
    } else {
      DigitsOrder(x / 10, y / 10, w - 1);
      ValOfDigits(x / 10, w - 1);
      ValOfDigits(y / 10, w - 1);
      LexLessConcat(Digits(x / 10, w - 1), [DigitChar(x % 10)], Digits(y / 10, w - 1), [DigitChar(y % 10)]);
      assert LexLess([DigitChar(x % 10)], [DigitChar(y % 10)]) <==> x % 10 < y % 10;
    }
  }

  /** String comparison of two printed dates is chronological comparison,
      for four-digit years. */
  lemma FormatOrder(a: Date, b: Date)
    requires FourDigitYear(a) && FourDigitYear(b)
    ensures LexLess(Format(a), Format(b)) <==> Before(a, b)
    ensures LexLe(Format(a), Format(b)) <==> NotAfter(a, b)
  {
    FormatOrderStrict(a, b);
    FormatOrderStrict(b, a);
  }

  lemma FormatBefore(a: Date, b: Date)
    requires FourDigitYear(a) && FourDigitYear(b) && Before(a, b)
    ensures LexLess(Format(a), Format(b))
  {
    FormatOrder(a, b);
  }

  lemma FormatOrderStrict(a: Date, b: Date)
    requires FourDigitYear(a) && FourDigitYear(b)
    ensures LexLess(Format(a), Format(b)) <==> Before(a, b)
  {
    FormatShape(a);
    FormatShape(b);
    var ya, yb := Digits(a.year, 4), Digits(b.year, 4);
    var ma, mb := Digits(a.month, 2), Digits(b.month, 2);
    var da, db := Digits(a.day, 2), Digits(b.day, 2);
    DigitsOrder(a.year, b.year, 4);
    DigitsOrder(a.month, b.month, 2);
    DigitsOrder(a.day, b.day, 2);
    ValOfDigits(a.year, 4);
    ValOfDigits(b.year, 4);
    ValOfDigits(a.month, 2);
    ValOfDigits(b.month, 2);
    LexLessConcat(ya, "-" + (ma + ("-" + da)), yb, "-" + (mb + ("-" + db)));
    LexLessConcat("-", ma + ("-" + da), "-", mb + ("-" + db));
    LexLessConcat(ma, "-" + da, mb, "-" + db);
    LexLessConcat("-", da, "-", db);
    LexLessIrreflexive("-");
  }
}

=== FILE: csv.dfy ===
/** The CSV export: `csvEscape`, the eight-column header, one line per
    exported booking, and the document joined with line feeds. A reader for
    the same dialect serves as the partner the export is proved against. It
    takes quoted fields as section 2 of RFC 4180 does, but it is lenient
    elsewhere: records are separated by bare line feeds, and an unquoted field
    keeps a carriage return or a `"` as data. */
module Csv {
  import opened Js
  import opened Records

  /** The characters that make `csvEscape` quote a value. A carriage return
      is not one of them. */
  predicate NeedsQuotes(s: string) {
    '"' in s || ',' in s || '\n' in s
  }

  /** Every `"` written twice. */
  function DoubleQuotes(s: string): (r: string)
    ensures |r| >= |s|
  {
    if s == [] then [] else (if s[0] == '"' then "\"\"" else [s[0]]) + DoubleQuotes(s[1..])
  }

  /** `csvEscape`: a value holding a quote, comma or line feed is wrapped in
      quotes with its inner quotes doubled; any other value is written as is. */
  function CsvEscape(s: string): (r: string)
    ensures !NeedsQuotes(s) ==> r == s
    ensures NeedsQuotes(s) ==> |r| >= |s| + 2 && r[0] == '"' && r[|r| - 1] == '"'
  {
    if NeedsQuotes(s) then "\"" + DoubleQuotes(s) + "\"" else s
  }

  /** Every `""` read as one `"`. */
  function Undouble(s: string): string {
    if s == [] then []
    else if |s| >= 2 && s[0] == '"' && s[1] == '"' then "\"" + Undouble(s[2..])
    else [s[0]] + Undouble(s[1..])
  }

  /** Strips the outer quotes of a quoted value and un-doubles its inner quotes. */
  function CsvUnescape(r: string): string {
    if |r| >= 2 && r[0] == '"' && r[|r| - 1] == '"' then Undouble(r[1..|r| - 1]) else r
  }

  lemma {:induction false} UndoubleDoubleQuotes(s: string)
    ensures Undouble(DoubleQuotes(s)) == s
  {
    if s != [] {
      UndoubleDoubleQuotes(s[1..]);
      var rest := DoubleQuotes(s[1..]);
      if s[0] == '"' {
        var t := "\"\"" + rest;
        assert t[0] == '"' && t[1] == '"' && t[2..] == rest;
      } else {
        var t := [s[0]] + rest;
        assert t[0] == s[0] && t[1..] == rest;
      }
      assert s == [s[0]] + s[1..];
    }
  }

  /** Unescaping undoes `csvEscape` on every value: a value left bare never
      looks quoted, and a quoted one comes back once its quotes are stripped
      and its inner quotes un-doubled. */
  lemma CsvEscapeInverse(s: string)
    ensures CsvUnescape(CsvEscape(s)) == s
  {
    var r := CsvEscape(s);
    if NeedsQuotes(s) {
      assert r[1..|r| - 1] == DoubleQuotes(s);
      UndoubleDoubleQuotes(s);
    }
  }

  /** A carriage return alone does not trigger quoting, unlike section 2 of
      RFC 4180, which quotes any field holding CR or LF. */
  lemma CarriageReturnNotQuoted()
    ensures CsvEscape("a\rb") == "a\rb"
  {
    var s := "a\rb";
    assert s[0] == 'a' && s[1] == '\r' && s[2] == 'b' && |s| == 3;
    assert !NeedsQuotes(s);
  }

  // ---------------------------------------------------------------------
  // Reading the dialect back

  /** `t` is what may follow a field: nothing, a comma, or a line feed. */
  predicate FieldEnd(t: string) {
    t == [] || t[0] == ',' || t[0] == '\n'
  }

  /** A bare field: everything up to the next comma or line feed, carriage
      returns and quotes included. */
  function BareField(s: string): (r: (string, string))
    ensures r.0 + r.1 == s
  {
    if s == [] || s[0] == ',' || s[0] == '\n' then ([], s)
    else
      var (f, rest) := BareField(s[1..]);
      assert [s[0]] + f + rest == [s[0]] + (f + rest);
      ([s[0]] + f, rest)
  }

  /** The body of a quoted field after its opening quote: up to the lone
      quote that closes it, with `""` read as `"`. None when it is never
      closed. */
  function QuotedBody(s: string): (r: Option<(string, string)>)
    ensures r.Some? ==> |r.value.1| < |s|
  {
    if s == [] then None
    else if s[0] == '"' then
      if |s| >= 2 && s[1] == '"' then
        match QuotedBody(s[2..])
        case None => None
        case Some((b, rest)) => Some(("\"" + b, rest))
      else Some(([], s[1..]))
    else
      match QuotedBody(s[1..])
      case None => None
      case Some((b, rest)) => Some(([s[0]] + b, rest))
  }

  function ParseField(s: string): (r: Option<(string, string)>)
    ensures r.Some? ==> |r.value.1| <= |s|
  {
    if s != [] && s[0] == '"' then QuotedBody(s[1..]) else Some(BareField(s))
  }

  /** The comma-separated fields of one record, and what follows them. */
  function ParseRecord(s: string): (r: Option<(seq<string>, string)>)
    ensures r.Some? ==> |r.value.0| >= 1 && |r.value.1| <= |s|
    decreases |s|
  {
    match ParseField(s)
    case None => None
    case Some((f, rest)) =>
      if rest != [] && rest[0] == ',' then
        match ParseRecord(rest[1..])
        case None => None
        case Some((fs, rest2)) => Some(([f] + fs, rest2))
      else Some(([f], rest))
  }

  /** Records separated by line feeds. */
  function ParseCsv(s: string): Option<seq<seq<string>>>
    decreases |s|
  {
    match ParseRecord(s)
    case None => None
    case Some((fs, rest)) =>
      if rest == [] then Some([fs])
      else if rest[0] == '\n' then
        match ParseCsv(rest[1..])
        case None => None
        case Some(rs) => Some([fs] + rs)
      else None
  }

  // ---------------------------------------------------------------------
  // Writing

  function EscapeAll(fields: seq<string>): (r: seq<string>)
    ensures |r| == |fields|
  {
    if fields == [] then [] else [CsvEscape(fields[0])] + EscapeAll(fields[1..])
  }

  /** `vals.map(csvEscape).join(",")` */
  function CsvLine(fields: seq<string>): string {
    Join(EscapeAll(fields), ",")
  }

  function CsvLines(records: seq<seq<string>>): (r: seq<string>)
    ensures |r| == |records|
  {
    if records == [] then [] else [CsvLine(records[0])] + CsvLines(records[1..])
  }

  /** `lines.join("\n")` */
  function CsvDocument(records: seq<seq<string>>): string {
    Join(CsvLines(records), "\n")
  }

  lemma {:induction false} BareRoundTrip(f: string, t: string)
    requires ',' !in f && '\n' !in f && FieldEnd(t)
    ensures BareField(f + t) == (f, t)
  {
    if f != [] {
      assert (f + t)[0] == f[0] && (f + t)[1..] == f[1..] + t;
      BareRoundTrip(f[1..], t);
      assert [f[0]] + f[1..] == f;
    } else {
      assert f + t == t;
    }
  }

  lemma {:induction false} QuotedRoundTrip(f: string, t: string)
    requires t == [] || t[0] != '"'
    ensures QuotedBody(DoubleQuotes(f) + "\"" + t) == Some((f, t))
  {
    var s := DoubleQuotes(f) + "\"" + t;
    if f == [] {
      assert s == "\"" + t && s[1..] == t;
    } else {
      QuotedRoundTrip(f[1..], t);
      var tail := DoubleQuotes(f[1..]) + "\"" + t;
      if f[0] == '"' {
        assert s == "\"\"" + tail;
        assert s[0] == '"' && s[1] == '"' && s[2..] == tail;
      } else {
        assert s == [f[0]] + tail;
        assert s[0] == f[0] && s[1..] == tail;
      }
      assert [f[0]] + f[1..] == f;
    }
  }

  lemma QuotedFieldRoundTrip(f: string, t: string)
    requires NeedsQuotes(f) && FieldEnd(t)
    ensures ParseField(CsvEscape(f) + t) == Some((f, t))
  {
    var body := DoubleQuotes(f) + "\"" + t;
    var s := "\"" + body;
    assert CsvEscape(f) + t == s;
    assert s[0] == '"' && s[1..] == body;
    QuotedRoundTrip(f, t);
  }

  /** A written field reads back as itself, leaving what follows it. */
  lemma FieldRoundTrip(f: string, t: string)
    requires FieldEnd(t)
    ensures ParseField(CsvEscape(f) + t) == Some((f, t))
  {
    if NeedsQuotes(f) {
      QuotedFieldRoundTrip(f, t);
    } else {
      BareRoundTrip(f, t);
      assert CsvEscape(f) + t == f + t;
      assert f != [] ==> (f + t)[0] == f[0];
    }
  }

  /** A written line reads back as its fields, leaving what follows it. */
  lemma {:induction false} RecordRoundTrip(fields: seq<string>, t: string)
    requires |fields| >= 1 && (t == [] || t[0] == '\n')
    ensures ParseRecord(CsvLine(fields) + t) == Some((fields, t))
  {
    var e := EscapeAll(fields);
    if |fields| == 1 {
      assert CsvLine(fields) == CsvEscape(fields[0]);
      FieldRoundTrip(fields[0], t);
      assert fields == [fields[0]];
    } else {
      var tail := CsvLine(fields[1..]) + t;
      assert e[1..] == EscapeAll(fields[1..]);
      assert CsvLine(fields) == CsvEscape(fields[0]) + "," + CsvLine(fields[1..]);
      assert CsvLine(fields) + t == CsvEscape(fields[0]) + ("," + tail);
      FieldRoundTrip(fields[0], "," + tail);
      assert ("," + tail)[1..] == tail;
      RecordRoundTrip(fields[1..], t);
      assert [fields[0]] + fields[1..] == fields;
    }
  }

  /** A written document reads back as its records, as long as every record
      has a field. */
  lemma {:induction false} DocumentRoundTrip(records: seq<seq<string>>)
    requires |records| >= 1
    requires forall i :: 0 <= i < |records| ==> |records[i]| >= 1
    ensures ParseCsv(CsvDocument(records)) == Some(records)
  {
    var lines := CsvLines(records);
    if |records| == 1 {
      assert CsvDocument(records) == CsvLine(records[0]) + [];
      RecordRoundTrip(records[0], []);
      assert records == [records[0]];
    } else {
      assert lines[1..] == CsvLines(records[1..]);
      var tail := CsvDocument(records[1..]);
      assert CsvDocument(records) == CsvLine(records[0]) + "\n" + tail;
      assert CsvDocument(records) == CsvLine(records[0]) + ("\n" + tail);
      RecordRoundTrip(records[0], "\n" + tail);
      assert ("\n" + tail)[1..] == tail;
      DocumentRoundTrip(records[1..]);
      assert [records[0]] + records[1..] == records;
    }
  }

  // ---------------------------------------------------------------------
  // The export

  const Header: seq<string> := ["Date Booked", "Patient Name", "Patient DOB", "Patient Status",
                                "Appt Date", "Appt Time", "Appointment Type", "Insurance"]

  /** The eight exported values of one booking, unescaped. */
  function CsvFields(r: Booking): (fields: seq<string>)
    ensures |fields| == 8
  {
    [BookedDate(r), PatientName(r), DobText(r), OrEmpty(r.patient_status),
     OrEmpty(r.appointment_date), OrEmpty(r.appointment_time),
     ApptTypeLabel(r.appointment_type), InsuranceLabel(r)]
  }

  lemma {:induction false} EscapeAllBare(fields: seq<string>)
    requires forall i :: 0 <= i < |fields| ==> !NeedsQuotes(fields[i])
    ensures EscapeAll(fields) == fields
  {
    if fields != [] {
      EscapeAllBare(fields[1..]);
      assert [fields[0]] + fields[1..] == fields;
    }
  }

  /** A line of values that need no quoting is the values joined with commas. */
  lemma BareLine(fields: seq<string>)
    requires forall i :: 0 <= i < |fields| ==> !NeedsQuotes(fields[i])
    ensures Join(fields, ",") == CsvLine(fields)
  {
    EscapeAllBare(fields);
  }

  /** Letters and spaces only. */
  predicate PlainWords(s: string) {
    forall i :: 0 <= i < |s| ==> 'A' <= s[i] <= 'Z' || 'a' <= s[i] <= 'z' || s[i] == ' '
  }

  lemma PlainWordsBare(s: string)
    requires PlainWords(s)
    ensures !NeedsQuotes(s)
  {
  }

  lemma HeaderWords()
    ensures forall i :: 0 <= i < |Header| ==> PlainWords(Header[i])
  {
  }

  lemma HeaderBare()
    ensures forall i :: 0 <= i < |Header| ==> !NeedsQuotes(Header[i])
  {
    HeaderWords();
    forall i | 0 <= i < |Header| {
      PlainWordsBare(Header[i]);
    }
  }

  /** No header name needs quoting, so `header.join(",")` is the header's
      escaped line. */
  lemma HeaderLine()
    ensures Join(Header, ",") == CsvLine(Header)
  {
    HeaderBare();
    BareLine(Header);
  }

  lemma {:induction false} CsvLinesAppend(records: seq<seq<string>>, rec: seq<string>)
    ensures CsvLines(records + [rec]) == CsvLines(records) + [CsvLine(rec)]
  {
    if records == [] {
      assert records + [rec] == [rec];
    } else {
      assert (records + [rec])[1..] == records[1..] + [rec];
      CsvLinesAppend(records[1..], rec);
    }
  }

  /** The document `exportCsv` writes for `rows`: the header joined with
      commas, then each row's escaped line, joined with line feeds. */
  function ExportText(rows: seq<Booking>): string {
    Join([Join(Header, ",")] + CsvLines(Map(CsvFields, rows)), "\n")
  }

  lemma ExportStep<R>(head: string, f: R -> seq<string>, rows: seq<R>, i: nat)
    requires i < |rows|
    ensures [head] + CsvLines(Map(f, rows[..i + 1])) == [head] + CsvLines(Map(f, rows[..i])) + [CsvLine(f(rows[i]))]
  {
    MapPrefix(f, rows, i);
    CsvLinesAppend(Map(f, rows[..i]), f(rows[i]));
  }

  /** The exported document reads back as the header followed by each row's
      eight values, in row order: one record per exported booking, whatever
      commas, quotes or line feeds its values hold. */
  lemma ExportRoundTrip(rows: seq<Booking>)
    ensures ParseCsv(ExportText(rows)) == Some([Header] + Map(CsvFields, rows))
  {
    HeaderLine();
    TableRoundTrip(Header, CsvFields, rows);
  }

  lemma TableRoundTrip<R>(head: seq<string>, f: R -> seq<string>, rows: seq<R>)
    requires |head| >= 1 && Join(head, ",") == CsvLine(head)
    requires forall i :: 0 <= i < |rows| ==> |f(rows[i])| >= 1
    ensures ParseCsv(Join([Join(head, ",")] + CsvLines(Map(f, rows)), "\n")) == Some([head] + Map(f, rows))
  {
    var records := [head] + Map(f, rows);
    forall i | 0 <= i < |records|
      ensures |records[i]| >= 1
    {
      if i > 0 {
        assert records[i] == f(rows[i - 1]);
      }
    }
    assert CsvLines(records) == [CsvLine(head)] + CsvLines(Map(f, rows));
    DocumentRoundTrip(records);
  }

  /** `exportCsv`'s line assembly: the header line, then one line per row in
      order, joined with line feeds. */
  method ExportDocument(rows: seq<Booking>) returns (doc: string)
    ensures doc == ExportText(rows)
  {
    var lines := [Join(Header, ",")];
    for i := 0 to |rows|
      invariant lines == [Join(Header, ",")] + CsvLines(Map(CsvFields, rows[..i]))
    {
      var vals := CsvFields(rows[i]);
      ExportStep(Join(Header, ","), CsvFields, rows, i);
      lines := lines + [Join(EscapeAll(vals), ",")];
    }
    assert rows[..|rows|] == rows;
    doc := Join(lines, "\n");
  }
}

=== FILE: html.dfy ===
/** `escapeHtml`: five global replacements, the ampersand first. */
module Html {
  import opened Js

  /** `String(s || "").replace(/&/g, "&amp;").replace(/</g, "&lt;")
      .replace(/>/g, "&gt;").replace(/"/g, "&quot;").replace(/'/g, "&#039;")` */
  function EscapeHtml(s: string): string {
    var a := ReplaceAll(s, '&', "&amp;");
    var b := ReplaceAll(a, '<', "&lt;");
    var c := ReplaceAll(b, '>', "&gt;");
    var d := ReplaceAll(c, '"', "&quot;");
    ReplaceAll(d, '\'', "&#039;")
  }

  /** The entity each character stands for in escaped text. */
  function Entity(c: char): string {
    if c == '&' then "&amp;"
    else if c == '<' then "&lt;"
    else if c == '>' then "&gt;"
    else if c == '"' then "&quot;"
    else if c == '\'' then "&#039;"
    else [c]
  }

  /** The reference definition: every character replaced by its entity, in
      one pass. */
  function EscapeChars(s: string): string {
    if s == [] then [] else Entity(s[0]) + EscapeChars(s[1..])
  }

  /** Decodes the five entities `escapeHtml` produces. */
  function Unescape(s: string): string
    decreases |s|
  {
    if s == [] then []
    else if "&amp;" <= s then "&" + Unescape(s[5..])
    else if "&lt;" <= s then "<" + Unescape(s[4..])
    else if "&gt;" <= s then ">" + Unescape(s[4..])
    else if "&quot;" <= s then "\"" + Unescape(s[6..])
    else if "&#039;" <= s then "'" + Unescape(s[6..])
    else [s[0]] + Unescape(s[1..])
  }

  predicate MarkupChar(c: char) {
    c == '<' || c == '>' || c == '"' || c == '\''
  }

  lemma ReplaceAllOne(c: char, x: char, rep: string)
    ensures ReplaceAll([c], x, rep) == if c == x then rep else [c]
  {
    assert [c][1..] == [];
  }

  /** The passes after the one that produced `e` leave it alone. */
  lemma LaterPassesKeep(e: string)
    requires '<' !in e && '>' !in e && '"' !in e && '\'' !in e
    ensures ReplaceAll(ReplaceAll(ReplaceAll(ReplaceAll(e, '<', "&lt;"), '>', "&gt;"), '"', "&quot;"), '\'', "&#039;") == e
  {
    ReplaceAllAbsent(e, '<', "&lt;");
    LastThreeKeep(e);
  }

  lemma LastThreeKeep(e: string)
    requires '>' !in e && '"' !in e && '\'' !in e
    ensures ReplaceAll(ReplaceAll(ReplaceAll(e, '>', "&gt;"), '"', "&quot;"), '\'', "&#039;") == e
  {
    ReplaceAllAbsent(e, '>', "&gt;");
    LastTwoKeep(e);
  }

  lemma LastTwoKeep(e: string)
    requires '"' !in e && '\'' !in e
    ensures ReplaceAll(ReplaceAll(e, '"', "&quot;"), '\'', "&#039;") == e
  {
    ReplaceAllAbsent(e, '"', "&quot;");
    ReplaceAllAbsent(e, '\'', "&#039;");
  }

  lemma EscapeOneChar(c: char)
    ensures EscapeHtml([c]) == Entity(c)
  {
    if c == '&' {
      EscapeAmpersand();
    } else if c == '<' {
      EscapeLessThan();
    } else if c == '>' {
      EscapeGreaterThan();
    } else if c == '"' {
      EscapeQuote();
    } else if c == '\'' {
      EscapeApostrophe();
    } else {
      ReplaceAllOne(c, '&', "&amp;");
      ReplaceAllOne(c, '<', "&lt;");
      ReplaceAllOne(c, '>', "&gt;");
      ReplaceAllOne(c, '"', "&quot;");
      ReplaceAllOne(c, '\'', "&#039;");
    }
  }

  lemma EscapeAmpersand()
    ensures EscapeHtml(['&']) == "&amp;"
  {
    ReplaceAllOne('&', '&', "&amp;");
    LaterPassesKeep("&amp;");
  }

  lemma EscapeLessThan()
    ensures EscapeHtml(['<']) == "&lt;"
  {
    ReplaceAllOne('<', '&', "&amp;");
    ReplaceAllOne('<', '<', "&lt;");
    LastThreeKeep("&lt;");
  }

  lemma EscapeGreaterThan()
    ensures EscapeHtml(['>']) == "&gt;"
  {
    ReplaceAllOne('>', '&', "&amp;");
    ReplaceAllOne('>', '<', "&lt;");
    ReplaceAllOne('>', '>', "&gt;");
    LastTwoKeep("&gt;");
  }

  lemma EscapeQuote()
    ensures EscapeHtml(['"']) == "&quot;"
  {
    ReplaceAllOne('"', '&', "&amp;");
    ReplaceAllOne('"', '<', "&lt;");
    ReplaceAllOne('"', '>', "&gt;");
    ReplaceAllOne('"', '"', "&quot;");
    ReplaceAllAbsent("&quot;", '\'', "&#039;");
  }

  lemma EscapeApostrophe()
    ensures EscapeHtml(['\'']) == "&#039;"
  {
    ReplaceAllOne('\'', '&', "&amp;");
    ReplaceAllOne('\'', '<', "&lt;");
    ReplaceAllOne('\'', '>', "&gt;");
    ReplaceAllOne('\'', '"', "&quot;");
    ReplaceAllOne('\'', '\'', "&#039;");
  }

  lemma EscapeHtmlConcat(a: string, b: string)
    ensures EscapeHtml(a + b) == EscapeHtml(a) + EscapeHtml(b)
  {
    ReplaceAllConcat(a, b, '&', "&amp;");
    var a1, b1 := ReplaceAll(a, '&', "&amp;"), ReplaceAll(b, '&', "&amp;");
    ReplaceAllConcat(a1, b1, '<', "&lt;");
    var a2, b2 := ReplaceAll(a1, '<', "&lt;"), ReplaceAll(b1, '<', "&lt;");
    ReplaceAllConcat(a2, b2, '>', "&gt;");
    var a3, b3 := ReplaceAll(a2, '>', "&gt;"), ReplaceAll(b2, '>', "&gt;");
    ReplaceAllConcat(a3, b3, '"', "&quot;");
    var a4, b4 := ReplaceAll(a3, '"', "&quot;"), ReplaceAll(b3, '"', "&quot;");
    ReplaceAllConcat(a4, b4, '\'', "&#039;");
  }

  /** Because the ampersand is replaced first, the five sequential passes
      escape every character exactly once. */
  lemma {:induction false} EscapeHtmlIsPerChar(s: string)
    ensures EscapeHtml(s) == EscapeChars(s)
  {
    if s != [] {
      assert s == [s[0]] + s[1..];
      EscapeHtmlConcat([s[0]], s[1..]);
      EscapeOneChar(s[0]);
      EscapeHtmlIsPerChar(s[1..]);
    }
  }

  lemma {:induction false} EscapeCharsSafe(s: string)
    ensures forall i :: 0 <= i < |EscapeChars(s)| ==> !MarkupChar(EscapeChars(s)[i])
  {
    if s != [] {
      EscapeCharsSafe(s[1..]);
      var e, rest := Entity(s[0]), EscapeChars(s[1..]);
      assert forall i :: 0 <= i < |e| ==> !MarkupChar(e[i]);
      assert EscapeChars(s) == e + rest;
    }
  }

  /** Decoding an entity followed by more text gives back its character. */
  lemma UnescapeEntity(c: char, rest: string)
    ensures Unescape(Entity(c) + rest) == [c] + Unescape(rest)
  {
    var e := Entity(c);
    var t := e + rest;
    if MarkupChar(c) || c == '&' {
      assert t[..|e|] == e && t[|e|..] == rest;
      assert t[1] == e[1];
    } else {
      assert t[0] == c && t[1..] == rest;
    }
  }

  lemma {:induction false} UnescapeEscapeChars(s: string)
    ensures Unescape(EscapeChars(s)) == s
  {
    if s != [] {
      UnescapeEscapeChars(s[1..]);
      UnescapeEntity(s[0], EscapeChars(s[1..]));
      assert s == [s[0]] + s[1..];
    }
  }

  /** Escaped text holds no `<`, `>`, `"` or `'`, and decoding it gives back
      the original text. */
  lemma EscapeHtmlSpec(s: string)
    ensures forall i :: 0 <= i < |EscapeHtml(s)| ==> !MarkupChar(EscapeHtml(s)[i])
    ensures Unescape(EscapeHtml(s)) == s
  {
    EscapeHtmlIsPerChar(s);
    EscapeCharsSafe(s);
    UnescapeEscapeChars(s);
  }

  /** The same five passes with the ampersand last. */
  function EscapeAmpersandLast(s: string): string {
    var b := ReplaceAll(s, '<', "&lt;");
    var c := ReplaceAll(b, '>', "&gt;");
    var d := ReplaceAll(c, '"', "&quot;");
    var e := ReplaceAll(d, '\'', "&#039;");
    ReplaceAll(e, '&', "&amp;")
  }

  /** Why the ampersand goes first: replaced last, it re-escapes the entities
      of the earlier passes. */
  lemma AmpersandOrderMatters()
    ensures EscapeHtml("<") == "&lt;"
    ensures EscapeAmpersandLast("<") == "&amp;lt;"
  {
    assert "<" == ['<'];
    EscapeLessThan();
    AmpersandLastOnLessThan();
  }

  lemma AmpersandLastOnLessThan()
    ensures EscapeAmpersandLast(['<']) == "&amp;lt;"
  {
    ReplaceAllOne('<', '<', "&lt;");
    LastThreeKeep("&lt;");
    AmpersandPassOnLt();
  }

  lemma AmpersandPassOnLt()
    ensures ReplaceAll("&lt;", '&', "&amp;") == "&amp;lt;"
  {
    assert "&lt;" == "&" + "lt;";
    ReplaceAllConcat("&", "lt;", '&', "&amp;");
    ReplaceAllOne('&', '&', "&amp;");
    ReplaceAllAbsent("lt;", '&', "&amp;");
  }
}

=== FILE: js.dfy ===
/** The slice of JavaScript semantics the portal's derivation rules rely on:
    truthiness, `String(x)`, `||`, `??`, and the string methods
    `toLowerCase`, `trim`, `includes`, `slice(0, n)`, `replace` and `join`. */
module Js {

  /** A field of a booking record as it arrives from JSON. Numbers and nested
      objects are not modelled. */
  datatype Value = Undefined | Null | Bool(b: bool) | Str(s: string)

  /** A value that may be missing (`null` in the source). */
  datatype Option<T> = None | Some(value: T)

  /** JavaScript truthiness: `false`, `""`, `null` and `undefined` are falsy. */
  predicate Truthy(v: Value) {
    match v
    case Bool(b) => b
    case Str(s) => s != ""
    case _ => false
  }

  /** `String(v)` */
  function ToStr(v: Value): string {
    match v
    case Undefined => "undefined"
    case Null => "null"
    case Bool(b) => if b then "true" else "false"
    case Str(s) => s
  }

  /** `a || b`: the first operand when it is truthy, otherwise the second. */
  function Or(a: Value, b: Value): (r: Value)
    ensures Truthy(r) <==> Truthy(a) || Truthy(b)
    ensures Truthy(a) ==> r == a
    ensures !Truthy(a) ==> r == b
  {
    if Truthy(a) then a else b
  }

  /** `a ?? b`: the first operand unless it is `null` or `undefined`. */
  function Coalesce(a: Value, b: Value): (r: Value)
    ensures !a.Undefined? && !a.Null? ==> r == a
    ensures a.Undefined? || a.Null? ==> r == b
  {
    if a.Undefined? || a.Null? then b else a
  }

  /** `String(v || "")`: the text of a truthy value, the empty string otherwise. */
  function OrEmpty(v: Value): (r: string)
    ensures r == "" <==> !Truthy(v)
    ensures Truthy(v) ==> r == ToStr(v)
  {
    ToStr(Or(v, Str("")))
  }

  /** `toLowerCase` on one character (ASCII letters only). */
  function LowerChar(c: char): char {
    if 'A' <= c <= 'Z' then (c as int + 32) as char else c
  }

  /** `s.toLowerCase()` */
  function Lower(s: string): (r: string)
    ensures |r| == |s|
    ensures forall i :: 0 <= i < |s| ==> r[i] == LowerChar(s[i])
  {
    seq(|s|, i requires 0 <= i < |s| => LowerChar(s[i]))
  }

  /** The characters `String.prototype.trim` removes: ECMAScript WhiteSpace and
      LineTerminator. */
  predicate IsSpace(c: char) {
    c == ' ' || c == '\t' || c == '\n' || c == '\r' || c == '\U{000B}' || c == '\U{000C}'
    || c == '\U{00A0}' || c == '\U{1680}' || ('\U{2000}' <= c <= '\U{200A}')
    || c == '\U{2028}' || c == '\U{2029}' || c == '\U{202F}' || c == '\U{205F}'
    || c == '\U{3000}' || c == '\U{FEFF}'
  }

  function TrimStart(s: string): (r: string)
    ensures |r| <= |s| && r == s[|s| - |r|..]
    ensures r == [] || !IsSpace(r[0])
  {
    if s != [] && IsSpace(s[0]) then TrimStart(s[1..]) else s
  }

  function TrimEnd(s: string): (r: string)
    ensures |r| <= |s| && r == s[..|r|]
    ensures r == [] || !IsSpace(r[|r| - 1])
  {
    if s != [] && IsSpace(s[|s| - 1]) then TrimEnd(s[..|s| - 1]) else s
  }

  /** `s.trim()`: `s` without its leading and trailing white space. */
  function Trim(s: string): (r: string)
    ensures |r| <= |s|
    ensures r == [] || (!IsSpace(r[0]) && !IsSpace(r[|r| - 1]))
  {
    TrimEnd(TrimStart(s))
  }

  /** `trimStart` removes white space only. */
  lemma {:induction false} TrimStartSpaces(s: string)
    ensures forall i :: 0 <= i < |s| - |TrimStart(s)| ==> IsSpace(s[i])
  {
    if s != [] && IsSpace(s[0]) {
      TrimStartSpaces(s[1..]);
    }
  }

  /** `trimEnd` removes white space only. */
  lemma {:induction false} TrimEndSpaces(s: string)
    ensures forall i :: |TrimEnd(s)| <= i < |s| ==> IsSpace(s[i])
  {
    if s != [] && IsSpace(s[|s| - 1]) {
      TrimEndSpaces(s[..|s| - 1]);
    }
  }

  /** Text without white space at either end, such as a name part. */
  predicate Unpadded(s: string) {
    s != [] && !IsSpace(s[0]) && !IsSpace(s[|s| - 1])
  }

  /** `trim` leaves text without border white space as it is. */
  lemma TrimUnpadded(s: string)
    requires Unpadded(s)
    ensures Trim(s) == s
  {
  }

  /** `trim` gives "" exactly for text made of white space only. */
  lemma TrimBlank(s: string)
    ensures Trim(s) == "" <==> forall i :: 0 <= i < |s| ==> IsSpace(s[i])
  {
    TrimStartSpaces(s);
    TrimEndSpaces(TrimStart(s));
    if TrimStart(s) != [] {
      assert s[|s| - |TrimStart(s)|] == TrimStart(s)[0];
    }
  }

  /** A white-space character in front makes no difference to `trim`. */
  lemma TrimLeadingSpace(c: char, s: string)
    requires IsSpace(c)
    ensures Trim([c] + s) == Trim(s)
  {
    assert ([c] + s)[1..] == s;
  }

  /** A white-space character at the back makes no difference to `trim`. */
  lemma TrimTrailingSpace(s: string, c: char)
    requires IsSpace(c)
    ensures Trim(s + [c]) == Trim(s)
  {
    TrimStartAppend(s, c);
    if TrimStart(s) != [] {
      assert (TrimStart(s) + [c])[..|TrimStart(s)|] == TrimStart(s);
    }
  }

  lemma {:induction false} TrimStartAppend(s: string, c: char)
    requires IsSpace(c)
    ensures TrimStart(s + [c]) == if TrimStart(s) == [] then [] else TrimStart(s) + [c]
  {
    if s != [] {
      assert (s + [c])[1..] == s[1..] + [c];
      if IsSpace(s[0]) {
        TrimStartAppend(s[1..], c);
      }
    } else {
      assert [c][1..] == [];
    }
  }

  /** `q` occurs in `s` starting at index `i`. */
  predicate OccursAt(s: string, q: string, i: int) {
    0 <= i && i + |q| <= |s| && s[i..i + |q|] == q
  }

  /** `s.includes(q)` */
  predicate Contains(s: string, q: string)
    decreases |s|
  {
    q <= s || (s != [] && Contains(s[1..], q))
  }

  /** `s.slice(0, n)` for a non-negative `n`. */
  function Take(s: string, n: nat): (r: string)
    ensures |r| == if |s| <= n then |s| else n
    ensures r <= s
  {
    if |s| <= n then s else s[..n]
  }

  /** `s.replace(c, d)` with a one-character search string: only the first
      occurrence is replaced. */
  function ReplaceFirst(s: string, c: char, d: char): (r: string)
    ensures |r| == |s|
    ensures forall i :: 0 <= i < |s| ==> r[i] == if s[i] == c && c !in s[..i] then d else s[i]
  {
    if s == [] then []
    else if s[0] == c then [d] + s[1..]
    else [s[0]] + ReplaceFirst(s[1..], c, d)
  }

  /** Text in front that does not hold `c` is left alone by `replace`. */
  lemma {:induction false} ReplaceFirstAfter(p: string, s: string, c: char, d: char)
    requires c !in p
    ensures ReplaceFirst(p + s, c, d) == p + ReplaceFirst(s, c, d)
  {
    if p == [] {
      assert p + s == s;
    } else {
      var ps := p + s;
      assert ps[0] == p[0] && ps[1..] == p[1..] + s;
      ReplaceFirstAfter(p[1..], s, c, d);
      assert ReplaceFirst(ps, c, d) == [p[0]] + (p[1..] + ReplaceFirst(s, c, d));
      assert p == [p[0]] + p[1..];
    }
  }

  /** `s.replace(/c/g, rep)`: every occurrence of `c` replaced by `rep`. */
  function ReplaceAll(s: string, c: char, rep: string): string {
    if s == [] then [] else (if s[0] == c then rep else [s[0]]) + ReplaceAll(s[1..], c, rep)
  }

  /** `parts.join(sep)` */
  function Join(parts: seq<string>, sep: string): string
    decreases |parts|
  {
    if |parts| == 0 then ""
    else if |parts| == 1 then parts[0]
    else parts[0] + sep + Join(parts[1..], sep)
  }

  /** `xs.map(f)` */
  function Map<R, S>(f: R -> S, xs: seq<R>): (r: seq<S>)
    ensures |r| == |xs|
    ensures forall i :: 0 <= i < |xs| ==> r[i] == f(xs[i])
  {
    if xs == [] then [] else Map(f, xs[..|xs| - 1]) + [f(xs[|xs| - 1])]
  }

  /** Mapping one more element appends its image. */
  lemma MapPrefix<R, S>(f: R -> S, xs: seq<R>, i: nat)
    requires i < |xs|
    ensures Map(f, xs[..i + 1]) == Map(f, xs[..i]) + [f(xs[i])]
  {
    assert xs[..i + 1][..i] == xs[..i];
  }

  lemma {:induction false} ReplaceFirstAbsent(s: string, c: char, d: char)
    requires c !in s
    ensures ReplaceFirst(s, c, d) == s
  {
    if s != [] {
      ReplaceFirstAbsent(s[1..], c, d);
    }
  }

  /** Replacing every `c` in a concatenation replaces it in each part. */
  lemma {:induction false} ReplaceAllConcat(a: string, b: string, c: char, rep: string)
    ensures ReplaceAll(a + b, c, rep) == ReplaceAll(a, c, rep) + ReplaceAll(b, c, rep)
  {
    if a == [] {
      assert a + b == b;
    } else {
      assert (a + b)[0] == a[0];
      assert (a + b)[1..] == a[1..] + b;
      ReplaceAllConcat(a[1..], b, c, rep);
    }
  }

  lemma {:induction false} ReplaceAllAbsent(s: string, c: char, rep: string)
    requires c !in s
    ensures ReplaceAll(s, c, rep) == s
  {
    if s != [] {
      ReplaceAllAbsent(s[1..], c, rep);
    }
  }

  /** Every string contains the empty string. */
  lemma ContainsEmpty(s: string)
    ensures Contains(s, "")
  {
  }

  lemma {:induction false} OccursContains(s: string, q: string, i: int)
    requires OccursAt(s, q, i)
    ensures Contains(s, q)
    decreases i
  {
    if i == 0 {
      assert q == s[..|q|];
    } else {
      assert s[1..][i - 1..i - 1 + |q|] == s[i..i + |q|];
      OccursContains(s[1..], q, i - 1);
    }
  }

  lemma {:induction false} ContainsOccurs(s: string, q: string)
    requires Contains(s, q)
    ensures exists i :: OccursAt(s, q, i)
    decreases |s|
  {
    if q <= s {
      assert OccursAt(s, q, 0);
    } else {
      ContainsOccurs(s[1..], q);
      var i :| OccursAt(s[1..], q, i);
      assert s[1..][i..i + |q|] == s[i + 1..i + 1 + |q|];
      assert OccursAt(s, q, i + 1);
    }
  }

  /** `includes` is the existence of an occurrence at some index. */
  lemma ContainsAt(s: string, q: string)
    ensures Contains(s, q) <==> exists i :: OccursAt(s, q, i)
  {
    if Contains(s, q) {
      ContainsOccurs(s, q);
    }
    if exists i :: OccursAt(s, q, i) {
      var i :| OccursAt(s, q, i);
      OccursContains(s, q, i);
    }
  }

  /** Every character of a contained string occurs in the containing one. */
  lemma ContainedChars(s: string, q: string)
    requires Contains(s, q)
    ensures forall c :: c in q ==> c in s
  {
    ContainsOccurs(s, q);
    var i :| OccursAt(s, q, i);
    forall c | c in q
      ensures c in s
    {
      var k :| 0 <= k < |q| && q[k] == c;
      assert s[i + k] == c;
    }
  }

  /** A string that lacks one of `q`'s characters does not contain `q`. */
  lemma MissingCharNotContained(s: string, q: string, c: char)
    requires c in q && c !in s
    ensures !Contains(s, q)
  {
    if Contains(s, q) {
      ContainedChars(s, q);
    }
  }

  /** `includes` is transitive: a string containing `q2` contains everything `q2` contains. */
  lemma ContainsTransitive(s: string, q2: string, q1: string)
    requires Contains(s, q2) && Contains(q2, q1)
    ensures Contains(s, q1)
  {
    ContainsAt(s, q2);
    ContainsAt(q2, q1);
    var i :| OccursAt(s, q2, i);
    var j :| OccursAt(q2, q1, j);
    forall k | 0 <= k < |q1|
      ensures s[i + j + k] == q1[k]
    {
      assert q1[k] == q2[j + k] == s[i + j + k];
    }
    assert s[i + j..i + j + |q1|] == q1;
    assert OccursAt(s, q1, i + j);
    ContainsAt(s, q1);
  }
}

=== FILE: portal.dfy ===
/** The page: the table cells `renderTable` writes for a booking, the login
    and error rules of `api`, and the state the page keeps between events
    (the two globals `AUTH_HEADER` and `cachedRows`, and the values of the
    search box and the two date inputs). */
module Portal {
  import opened Js
  import opened Calendar
  import opened Records
  import opened Search
  import opened Html
  import opened Csv
  import opened Ranges

  // ---------------------------------------------------------------------------
  // Table cells

  /** `x || "—"` on a text. */
  function DashIfEmpty(s: string): (r: string)
    ensures r != ""
    ensures s == "" ==> r == Dash
    ensures s != "" ==> r == s
  {
    if s == "" then Dash else s
  }

  /** The eight values of a table row before escaping: booked date, name,
      date of birth, status badge, appointment date and time, type and
      insurance, with "—" standing in for a missing date or time. */
  function TableValues(r: Booking): (values: seq<string>)
    ensures |values| == 8
  {
    [DashIfEmpty(BookedDate(r)), PatientName(r), DashIfEmpty(DobText(r)),
     StatusBadge(r.patient_status),
     DashIfEmpty(OrEmpty(r.appointment_date)), DashIfEmpty(OrEmpty(r.appointment_time)),
     ApptTypeLabel(r.appointment_type), InsuranceLabel(r)]
  }

  /** The cells `renderTable` escapes: all but the booked date and the
      status badge. */
  predicate Escaped(i: int) {
    i == 1 || i == 2 || i == 4 || i == 5 || i == 6 || i == 7
  }

  /** The contents of the eight `<td>` cells of a row: the escaped cells
      through `escapeHtml`, the other two as they are. */
  function TableCells(r: Booking): (cells: seq<string>)
    ensures |cells| == 8
  {
    var v := TableValues(r);
    [v[0], EscapeHtml(v[1]), EscapeHtml(v[2]), v[3],
     EscapeHtml(v[4]), EscapeHtml(v[5]), EscapeHtml(v[6]), EscapeHtml(v[7])]
  }

  /** Each escaped cell is its value through `escapeHtml`. */
  lemma EscapedIs(r: Booking, i: int)
    requires 0 <= i < 8 && Escaped(i)
    ensures TableCells(r)[i] == EscapeHtml(TableValues(r)[i])
  {
  }

  /** The booked cell is written without escaping: a `created_at` of at most
      ten characters without `T` appears in the table as it is, markup
      characters included. */
  lemma BookedCellRaw(r: Booking, s: string)
    requires r.created_at == Str(s) && s != "" && 'T' !in s && |s| <= 10
    ensures TableCells(r)[0] == s
  {
    BookedOfPlain(r, s);
    assert TableValues(r)[0] == s;
  }

  lemma EscapedCell(r: Booking, i: int)
    requires 0 <= i < 8 && Escaped(i)
    ensures forall k :: 0 <= k < |TableCells(r)[i]| ==> !MarkupChar(TableCells(r)[i][k])
    ensures Unescape(TableCells(r)[i]) == TableValues(r)[i]
  {
    EscapedIs(r, i);
    EscapeHtmlSpec(TableValues(r)[i]);
  }

  /** The six escaped cells hold no `<`, `>`, `"` or `'` and decode to their
      values. The booked cell is not one of them (`BookedCellRaw`). */
  lemma TableCellsSafe(r: Booking)
    ensures forall i :: 0 <= i < 8 && Escaped(i) ==>
      forall k :: 0 <= k < |TableCells(r)[i]| ==> !MarkupChar(TableCells(r)[i][k])
    ensures forall i :: 0 <= i < 8 && Escaped(i) ==> Unescape(TableCells(r)[i]) == TableValues(r)[i]
  {
    forall i | 0 <= i < 8 && Escaped(i)
      ensures forall k :: 0 <= k < |TableCells(r)[i]| ==> !MarkupChar(TableCells(r)[i][k])
      ensures Unescape(TableCells(r)[i]) == TableValues(r)[i]
    {
      EscapedCell(r, i);
    }
  }

  /** Where the export writes an empty text, the table shows "—". */
  predicate DashedInTable(i: int) {
    i == 0 || i == 2 || i == 4 || i == 5
  }

  /** The table's values are the export's fields, with "—" for an empty
      date or time and the badge in place of the status text. */
  lemma ValuesFromFields(r: Booking)
    ensures var c := CsvFields(r);
      TableValues(r) == [DashIfEmpty(c[0]), c[1], DashIfEmpty(c[2]), StatusBadge(r.patient_status),
                         DashIfEmpty(c[4]), DashIfEmpty(c[5]), c[6], c[7]]
  {
  }

  /** One cell of the table against the same column of the export. */
  lemma CellMatchesExport(r: Booking, i: int)
    requires 0 <= i < 8 && i != 3
    ensures TableValues(r)[i] == if DashedInTable(i) then DashIfEmpty(CsvFields(r)[i]) else CsvFields(r)[i]
  {
    ValuesFromFields(r);
  }

  /** The table and the export show the same row: every cell but the badge
      decodes to the exported value, or to "—" in a date or time cell
      where the export writes nothing. The booked date is the one cell not escaped. */
  lemma TableMatchesExport(r: Booking)
    ensures forall i :: 0 <= i < 8 && Escaped(i) ==>
      Unescape(TableCells(r)[i]) == if DashedInTable(i) then DashIfEmpty(CsvFields(r)[i]) else CsvFields(r)[i]
    ensures TableCells(r)[0] == DashIfEmpty(CsvFields(r)[0])
  {
    forall i | 0 <= i < 8 && Escaped(i)
      ensures Unescape(TableCells(r)[i]) == if DashedInTable(i) then DashIfEmpty(CsvFields(r)[i]) else CsvFields(r)[i]
    {
      EscapedCell(r, i);
      CellMatchesExport(r, i);
    }
    CellMatchesExport(r, 0);
  }

  // ---------------------------------------------------------------------------
  // `api`

  /** The parsed body of a reply; `None` stands for a body that is not JSON. */
  datatype Reply = Reply(ok: Value, error: Value, results: seq<Booking>)

  /** What a call to `api` ends in: the parsed body, or the message of the
      error it throws. */
  datatype Outcome = Data(reply: Reply) | Thrown(message: string)

  /** The outcome of a call and the value `AUTH_HEADER` holds after it. */
  datatype ApiResult = ApiResult(out: Outcome, auth: Option<string>)

  const LoginCancelled: string := "Login cancelled."
  const Unauthorized: string := "Unauthorized (wrong credentials)."

  /** A truthy `AUTH_HEADER`. */
  predicate HasAuth(h: Option<string>) {
    h.Some? && h.value != ""
  }

  /** The header a call sends: the stored one, or what the login prompt
      gave when none is stored. */
  function HeaderUsed(auth: Option<string>, login: Option<string>): Option<string> {
    if HasAuth(auth) then auth else login
  }

  /** `api(path)`: `login` is what `promptLogin` returns, `status` and `body`
      the reply to the request. */
  function ApiCall(auth: Option<string>, login: Option<string>, status: nat, body: Option<Reply>): (r: ApiResult)
    ensures r.out.Data? ==> HasAuth(r.auth) && status != 401
    ensures HasAuth(HeaderUsed(auth, login)) && status == 401 ==> r.auth == None
  {
    var h := HeaderUsed(auth, login);
    if !HasAuth(h) then ApiResult(Thrown(LoginCancelled), h)
    else if status == 401 then ApiResult(Thrown(Unauthorized), None)
    else if body.None? || !Truthy(body.value.ok) then
      ApiResult(Thrown(
        if body.Some? && Truthy(body.value.error) then ToStr(body.value.error)
        else "API error (" + Decimal(status) + ")"), h)
    else ApiResult(Data(body.value), h)
  }

  /** A stored header is used as it is: the prompt's answer makes no
      difference to the call. */
  lemma StoredHeaderReused(auth: Option<string>, l1: Option<string>, l2: Option<string>, status: nat, body: Option<Reply>)
    requires HasAuth(auth)
    ensures ApiCall(auth, l1, status, body) == ApiCall(auth, l2, status, body)
  {
  }

  /** A 401 reply throws and forgets the header, so the next call prompts
      again; no other outcome drops a header that was used. */
  lemma UnauthorizedForgets(auth: Option<string>, login: Option<string>, status: nat, body: Option<Reply>)
    requires HasAuth(HeaderUsed(auth, login))
    ensures var r := ApiCall(auth, login, status, body);
      (status == 401 ==> r == ApiResult(Thrown(Unauthorized), None))
      && (status != 401 ==> r.auth == HeaderUsed(auth, login))
      && (!HasAuth(r.auth) <==> status == 401)
  {
  }

  /** The call returns data exactly when a header was sent, the reply was
      not a 401, and its body is JSON with a truthy `ok`; the data is that
      body. */
  lemma ApiSucceeds(auth: Option<string>, login: Option<string>, status: nat, body: Option<Reply>)
    ensures var r := ApiCall(auth, login, status, body);
      r.out.Data? <==> HasAuth(HeaderUsed(auth, login)) && status != 401 && body.Some? && Truthy(body.value.ok)
    ensures var r := ApiCall(auth, login, status, body);
      r.out.Data? ==> r.out.reply == body.value && HasAuth(r.auth)
  {
  }

  /** A failed reply throws the body's `error` when it has a truthy one, and
      `API error (<status>)` otherwise. */
  lemma ApiErrorMessage(auth: Option<string>, login: Option<string>, status: nat, body: Option<Reply>)
    requires HasAuth(HeaderUsed(auth, login)) && status != 401
    requires body.None? || !Truthy(body.value.ok)
    ensures var r := ApiCall(auth, login, status, body);
      (body.Some? && Truthy(body.value.error) ==> r.out == Thrown(ToStr(body.value.error)))
      && (body.None? || !Truthy(body.value.error) ==>
            r.out == Thrown("API error (" + Decimal(status) + ")"))
  {
  }

  /** Cancelling the prompt with no header stored throws before any
      request, and leaves no header. */
  lemma CancelledLogin(auth: Option<string>, login: Option<string>, status: nat, body: Option<Reply>)
    requires !HasAuth(auth) && !HasAuth(login)
    ensures ApiCall(auth, login, status, body) == ApiResult(Thrown(LoginCancelled), login)
  {
  }

  // ---------------------------------------------------------------------------
  // The page state

  /** The file name the export downloads as. */
  function ExportFileName(today: Date): (name: string)
    requires Valid(today)
    ensures |name| == |Format(today)| + 25
    ensures name[..21] == FilePrefix && name[|name| - 4..] == FileSuffix
    ensures name[21..|name| - 4] == Format(today)
  {
    FilePrefix + Format(today) + FileSuffix
  }

  const FilePrefix: string := "bhfd_online_bookings_"
  const FileSuffix: string := ".csv"

  /** The date in the file name reads back as today. */
  lemma ExportFileNameDate(today: Date)
    requires FourDigitYear(today)
    ensures |ExportFileName(today)| == 35
    ensures ParseDate(ExportFileName(today)[21..31]) == Some(today)
  {
    FormatShape(today);
    ParseFormat(today);
  }

  class Page {
    /** `AUTH_HEADER`: `None` for `null`. */
    var authHeader: Option<string>
    /** `cachedRows`: the rows of the last load, for search and export. */
    var cachedRows: seq<Booking>
    /** The value of the search box. */
    var search: string
    /** The values of the start and end date inputs. */
    var startDate: string
    var endDate: string

    /** The page as it opens: no header, no rows, an empty search box, and
        the date inputs set to the last 30 days (the `init` block). */
    constructor(today: Date)
      requires FourDigitYear(today)
      ensures authHeader == None && cachedRows == [] && search == ""
      ensures Window(startDate, endDate) == RangeFor(Days(30), today, Window("", ""))
    {
      var t := Format(today);
      ParseFormat(today);
      authHeader := None;
      cachedRows := [];
      search := "";
      endDate := t;
      startDate := AddDaysText(t, -29);
    }

    /** `renderTable(rows)`: caches the rows, and returns the cells of the
        rows that pass the search box's filter, in cached order. */
    method RenderTable(rows: seq<Booking>) returns (cells: seq<seq<string>>)
      modifies this
      ensures cachedRows == rows
      ensures cells == Map(TableCells, Filter(rows, Query(search)))
      ensures authHeader == old(authHeader) && search == old(search)
      ensures startDate == old(startDate) && endDate == old(endDate)
    {
      cachedRows := rows;
      var q := Query(search);
      var filtered := if q == "" then cachedRows else FilterMatching(cachedRows, q);
      assert filtered == Filter(rows, Query(search));
      cells := Map(TableCells, filtered);
    }

    /** Typing in the search box re-renders the cached rows; the cache
        itself is left as it is. */
    method SearchInput(value: string) returns (cells: seq<seq<string>>)
      modifies this
      ensures search == value && cachedRows == old(cachedRows)
      ensures cells == Map(TableCells, Filter(cachedRows, Query(value)))
      ensures authHeader == old(authHeader)
      ensures startDate == old(startDate) && endDate == old(endDate)
    {
      search := value;
      cells := RenderTable(cachedRows);
    }

    /** `exportCsv()`: the document of the rows the table shows, and the
        name it downloads as. */
    method ExportCsv(today: Date) returns (name: string, doc: string)
      requires Valid(today)
      ensures doc == ExportText(Filter(cachedRows, Query(search)))
      ensures name == ExportFileName(today)
    {
      var q := Query(search);
      var rows := if q == "" then cachedRows else FilterMatching(cachedRows, q);
      doc := ExportDocument(rows);
      name := ExportFileName(today);
    }

    /** `applyRange(mode)`: sets the date inputs for the quick range. The
        reload that follows is not part of this model. */
    method ApplyRange(mode: Mode, today: Date)
      requires FourDigitYear(today)
      modifies this
      ensures Window(startDate, endDate) == RangeFor(mode, today, old(Window(startDate, endDate)))
      ensures authHeader == old(authHeader) && cachedRows == old(cachedRows) && search == old(search)
    {
      var t := Format(today);
      RangeForCases(mode, today, Window(startDate, endDate));
      if mode.Today? {
        startDate := t;
        endDate := t;
      } else if mode.MonthToDate? {
        startDate := MonthStartText(t);
        endDate := t;
      } else if mode.Days? {
        endDate := t;
        startDate := AddDaysText(t, -(mode.n - 1));
      }
    }

    /** `api(path)` against the page's stored header. */
    method Api(login: Option<string>, status: nat, body: Option<Reply>) returns (out: Outcome)
      modifies this
      ensures ApiResult(out, authHeader) == ApiCall(old(authHeader), login, status, body)
      ensures cachedRows == old(cachedRows) && search == old(search)
      ensures startDate == old(startDate) && endDate == old(endDate)
    {
      if !HasAuth(authHeader) {
        authHeader := login;
        if !HasAuth(authHeader) {
          return Thrown(LoginCancelled);
        }
      }
      if status == 401 {
        authHeader := None;
        return Thrown(Unauthorized);
      }
      if body.None? || !Truthy(body.value.ok) {
        var message := if body.Some? && Truthy(body.value.error) then ToStr(body.value.error)
                       else "API error (" + Decimal(status) + ")";
        return Thrown(message);
      }
      return Data(body.value);
    }

    /** The login button: forget the header, so the next call prompts. */
    method Login()
      modifies this
      ensures authHeader == None
      ensures cachedRows == old(cachedRows) && search == old(search)
      ensures startDate == old(startDate) && endDate == old(endDate)
    {
      authHeader := None;
    }
  }
}

=== FILE: ranges.dfy ===
/** The date window: the quick-range buttons of `applyRange`, and the query
    strings `loadAll` builds from the two date inputs. */
module Ranges {
  import opened Js
  import opened Calendar
  import opened Uri
  import opened Series

  /** A quick-range button's `data-range` as `applyRange` reads it: `"today"`,
      `"mtd"`, or `Number(mode)`, which is a whole number of days or not a
      finite number at all. */
  datatype Mode = Today | MonthToDate | Days(n: int) | NotFinite

  /** The values of the start and end date inputs. */
  datatype Window = Window(start: string, end: string)

  /** The date inputs after `applyRange(mode)` on `today`. A mode that is not
      a finite number leaves both inputs as they were. */
  function RangeFor(mode: Mode, today: Date, current: Window): (w: Window)
    requires FourDigitYear(today)
    ensures mode.NotFinite? ==> w == current
    ensures !mode.NotFinite? ==> ParseDate(w.end) == Some(today)
  {
    var t := Format(today);
    ParseFormat(today);
    match mode
    case Today => Window(t, t)
    case MonthToDate => Window(MonthStartText(t), t)
    case Days(n) => Window(AddDaysText(t, -(n - 1)), t)
    case NotFinite => current
  }

  /** `RangeFor` mode by mode, in the terms of the date helpers. */
  lemma RangeForCases(mode: Mode, today: Date, current: Window)
    requires FourDigitYear(today)
    ensures ParseDate(Format(today)).Some?
    ensures mode.Today? ==> RangeFor(mode, today, current) == Window(Format(today), Format(today))
    ensures mode.MonthToDate? ==>
      RangeFor(mode, today, current) == Window(MonthStartText(Format(today)), Format(today))
    ensures mode.Days? ==>
      RangeFor(mode, today, current) == Window(AddDaysText(Format(today), -(mode.n - 1)), Format(today))
    ensures mode.NotFinite? ==> RangeFor(mode, today, current) == current
  {
    ParseFormat(today);
  }

  /** "today": both inputs hold today's date. */
  lemma TodayWindow(today: Date, current: Window)
    requires FourDigitYear(today)
    ensures var w := RangeFor(Today, today, current);
      w.start == w.end && ParseDate(w.start) == Some(today)
  {
  }

  /** "mtd": from the first of today's month to today, a window of
      `today.day` days. */
  lemma MonthToDateWindow(today: Date, current: Window)
    requires FourDigitYear(today)
    ensures var w := RangeFor(MonthToDate, today, current);
      ParseDate(w.start) == Some(Date(today.year, today.month, 1))
      && AddDays(Date(today.year, today.month, 1), today.day - 1) == today
      && LexLe(w.start, w.end)
  {
    var first := Date(today.year, today.month, 1);
    ParseFormat(today);
    MonthStartSpan(today);
    FormatOrder(first, today);
  }

  lemma DaysText(n: int, today: Date, current: Window)
    requires FourDigitYear(today) && FourDigitYear(AddDays(today, -(n - 1)))
    ensures RangeFor(Days(n), today, current) == Window(Format(AddDays(today, -(n - 1))), Format(today))
  {
    ParseFormat(today);
  }

  /** A number of days `n` of at least one: the window ends today and starts
      `n - 1` days earlier, so it spans exactly `n` days. */
  lemma DaysWindow(n: int, today: Date, current: Window)
    requires FourDigitYear(today) && n >= 1 && FourDigitYear(AddDays(today, -(n - 1)))
    ensures var w := RangeFor(Days(n), today, current);
      ParseDate(w.start) == Some(AddDays(today, -(n - 1)))
      && AddDays(ParseDate(w.start).value, n - 1) == today
      && LexLe(w.start, w.end)
  {
    var first := AddDays(today, -(n - 1));
    DaysText(n, today, current);
    ParseFormat(first);
    SpanBack(today, n);
    FormatOrder(first, today);
  }

  /** The series built on an `n`-day window has `n` labels. */
  lemma DaysWindowLabels(n: int, today: Date, labels: seq<string>)
    requires FourDigitYear(today) && n >= 1 && FourDigitYear(AddDays(today, -(n - 1)))
    requires DaysBetween(labels, AddDays(today, -(n - 1)), today)
    ensures |labels| == n
  {
    var first := AddDays(today, -(n - 1));
    SpanBack(today, n);
    RunLengthUnique(first, today, |labels|, n);
  }

  /** Going `n - 1` days back and then forward again returns to the start,
      and never passes it. */
  lemma SpanBack(today: Date, n: int)
    requires Valid(today) && n >= 1
    ensures AddDays(AddDays(today, -(n - 1)), n - 1) == today
    ensures NotAfter(AddDays(today, -(n - 1)), today)
  {
    AddDaysInverse(today, -(n - 1));
    if n > 1 {
      AddDaysForward(AddDays(today, -(n - 1)), n - 1);
    } else {
      assert AddDays(today, 0) == today;
    }
  }

  /** A number below one puts the start after the end: no day is in the
      window, and the series built on it is empty. */
  lemma EmptyDaysWindow(n: int, today: Date, current: Window)
    requires FourDigitYear(today) && n <= 0 && FourDigitYear(AddDays(today, 1 - n))
    ensures var w := RangeFor(Days(n), today, current);
      ParseDate(w.start) == Some(AddDays(today, 1 - n))
      && LexLess(w.end, w.start)
      && forall labels :: DaysBetween(labels, ParseDate(w.start).value, today) ==> labels == []
  {
    var first := AddDays(today, 1 - n);
    DaysText(n, today, current);
    ParseFormat(first);
    AddDaysForward(today, 1 - n);
    FormatOrder(today, first);
  }

  // ---------------------------------------------------------------------------
  // The requests `loadAll` makes.

  /** `(els.startDate.value || "").trim()` and the same for the end input. */
  function LoadRange(startInput: string, endInput: string): (w: Window)
    ensures |w.start| <= |startInput| && |w.end| <= |endInput|
    ensures w.start == "" <==> forall i :: 0 <= i < |startInput| ==> IsSpace(startInput[i])
    ensures w.end == "" <==> forall i :: 0 <= i < |endInput| ==> IsSpace(endInput[i])
  {
    TrimBlank(startInput);
    TrimBlank(endInput);
    Window(Trim(startInput), Trim(endInput))
  }

  /** `loadAll` sends no range when either date input is blank, and an input
      without border white space is sent as typed. */
  lemma LoadRangeQuery(startInput: string, endInput: string)
    ensures var w := LoadRange(startInput, endInput);
      QueryString(w.start, w.end) == "" <==>
        (forall i :: 0 <= i < |startInput| ==> IsSpace(startInput[i]))
        || (forall i :: 0 <= i < |endInput| ==> IsSpace(endInput[i]))
    ensures Unpadded(startInput) && Unpadded(endInput) ==> LoadRange(startInput, endInput) == Window(startInput, endInput)
  {
    if Unpadded(startInput) && Unpadded(endInput) {
      TrimUnpadded(startInput);
      TrimUnpadded(endInput);
    }
  }

  /** The range goes into the query string only when both bounds are set. */
  function QueryString(start: string, end: string): (qs: string)
    ensures qs == "" <==> start == "" || end == ""
  {
    if start != "" && end != ""
    then "?" + StartKey + EncodeURIComponent(start) + "&" + EndKey + EncodeURIComponent(end)
    else ""
  }

  const BookingsBase: string := "/office/bookings"
  const AnalyticsBase: string := "/office/analytics"
  const Limit: string := "limit=250"
  const StartKey: string := "start="
  const EndKey: string := "end="

  /** `/office/bookings${qs ? qs + "&" : "?"}limit=250` */
  function BookingsPath(qs: string): string {
    BookingsBase + (if qs != "" then qs + "&" else "?") + Limit
  }

  /** `/office/analytics${qs}` */
  function AnalyticsPath(qs: string): string {
    AnalyticsBase + qs
  }

  /** The text after the first `?` of a request path, if it has one. */
  function QueryPart(path: string): Option<string> {
    if path == [] then None
    else if path[0] == '?' then Some(path[1..])
    else QueryPart(path[1..])
  }

  /** `s.split(c)` */
  function Split(s: string, c: char): (parts: seq<string>)
    ensures |parts| >= 1
  {
    if s == [] then [""]
    else
      var rest := Split(s[1..], c);
      if s[0] == c then [""] + rest else [[s[0]] + rest[0]] + rest[1..]
  }

  /** The `&`-separated parameters of a request path, as the server reads
      them. */
  function Params(path: string): seq<string> {
    var q := QueryPart(path);
    if q.Some? then Split(q.value, '&') else []
  }

  lemma {:induction false} QueryPartAfter(p: string, rest: string)
    requires '?' !in p
    ensures QueryPart(p + "?" + rest) == Some(rest)
  {
    var t := p + "?" + rest;
    if p != [] {
      assert t[0] == p[0] && t[1..] == p[1..] + "?" + rest;
      QueryPartAfter(p[1..], rest);
    } else {
      assert t[0] == '?' && t[1..] == rest;
    }
  }

  lemma {:induction false} QueryPartNone(p: string)
    requires '?' !in p
    ensures QueryPart(p) == None
  {
    if p != [] {
      QueryPartNone(p[1..]);
    }
  }

  lemma {:induction false} SplitWhole(a: string, c: char)
    requires c !in a
    ensures Split(a, c) == [a]
  {
    if a != [] {
      SplitWhole(a[1..], c);
      assert [a[0]] + a[1..] == a;
    }
  }

  lemma {:induction false} SplitAt(a: string, c: char, b: string)
    requires c !in a
    ensures Split(a + [c] + b, c) == [a] + Split(b, c)
  {
    var t := a + [c] + b;
    if a == [] {
      assert t[0] == c && t[1..] == b;
    } else {
      assert t[0] == a[0] && t[1..] == a[1..] + [c] + b;
      SplitAt(a[1..], c, b);
      assert [a[0]] + a[1..] == a;
    }
  }

  lemma {:induction false} SplitJoin(parts: seq<string>, c: char)
    requires |parts| >= 1 && forall i :: 0 <= i < |parts| ==> c !in parts[i]
    ensures Split(Join(parts, [c]), c) == parts
  {
    if |parts| == 1 {
      SplitWhole(parts[0], c);
    } else {
      SplitJoin(parts[1..], c);
      SplitAt(parts[0], c, Join(parts[1..], [c]));
      assert parts == [parts[0]] + parts[1..];
    }
  }

  /** A path whose query is parameters joined with `&` reads back as those
      parameters, as long as none holds an `&` itself. */
  lemma ParamsOf(base: string, parts: seq<string>)
    requires '?' !in base
    requires |parts| >= 1 && forall i :: 0 <= i < |parts| ==> '&' !in parts[i]
    ensures Params(base + "?" + Join(parts, "&")) == parts
  {
    QueryPartAfter(base, Join(parts, "&"));
    SplitJoin(parts, '&');
  }

  /** No `&` in an encoded value. */
  lemma EncodedNoAmpersand(s: string)
    ensures '&' !in EncodeURIComponent(s)
  {
    EncodeSafe(s);
  }

  /** The fixed parts of the paths hold no delimiter. */
  lemma Fixed()
    ensures '?' !in BookingsBase && '?' !in AnalyticsBase && '&' !in Limit
    ensures '&' !in StartKey && '&' !in EndKey
  {
  }

  /** The range parameters, encoded. */
  function RangeParams(start: string, end: string): seq<string> {
    [StartKey + EncodeURIComponent(start), EndKey + EncodeURIComponent(end)]
  }

  lemma RangeParamsPlain(start: string, end: string)
    ensures forall i :: 0 <= i < 2 ==> '&' !in RangeParams(start, end)[i]
  {
    Fixed();
    EncodedNoAmpersand(start);
    EncodedNoAmpersand(end);
  }

  /** Both bounds set: the query string is `?` and the two range parameters
      joined with `&`. */
  lemma QueryStringForm(start: string, end: string)
    requires start != "" && end != ""
    ensures QueryString(start, end) == "?" + Join(RangeParams(start, end), "&")
  {
    var e1, e2 := EncodeURIComponent(start), EncodeURIComponent(end);
    assert [StartKey + e1, EndKey + e2][1..] == [EndKey + e2];
    assert "?" + StartKey + e1 + "&" + EndKey + e2 == "?" + ((StartKey + e1) + "&" + (EndKey + e2));
  }

  /** The bookings request always asks for at most 250 rows, and carries the
      range, as its first two parameters, exactly when both bounds are set. */
  lemma BookingsParams(start: string, end: string)
    ensures start != "" && end != "" ==>
      Params(BookingsPath(QueryString(start, end))) == RangeParams(start, end) + [Limit]
    ensures start == "" || end == "" ==> Params(BookingsPath(QueryString(start, end))) == [Limit]
  {
    if start != "" && end != "" {
      BookingsWithRange(start, end);
    } else {
      Fixed();
      assert Join([Limit], "&") == Limit;
      ParamsOf(BookingsBase, [Limit]);
    }
  }

  lemma BookingsWithRange(start: string, end: string)
    requires start != "" && end != ""
    ensures Params(BookingsPath(QueryString(start, end))) == RangeParams(start, end) + [Limit]
  {
    QueryStringForm(start, end);
    Fixed();
    RangeParamsPlain(start, end);
    ParamsAppended(BookingsBase, RangeParams(start, end), Limit);
  }

  lemma {:induction false} JoinAppend(xs: seq<string>, z: string, sep: string)
    requires |xs| >= 1
    ensures Join(xs + [z], sep) == Join(xs, sep) + sep + z
  {
    var ys := xs + [z];
    if |xs| == 1 {
      assert ys[1..] == [z];
    } else {
      assert ys[1..] == xs[1..] + [z];
      JoinAppend(xs[1..], z, sep);
    }
  }

  /** One more parameter after a query string: `base + (qs + "&") + last`. */
  lemma ParamsAppended(base: string, q: seq<string>, last: string)
    requires '?' !in base && '&' !in last
    requires |q| >= 1 && forall i :: 0 <= i < |q| ==> '&' !in q[i]
    ensures Params(base + ("?" + Join(q, "&") + "&") + last) == q + [last]
  {
    JoinAppend(q, last, "&");
    var all := q + [last];
    assert forall i :: 0 <= i < |all| ==> '&' !in all[i] by {
      forall i | 0 <= i < |all|
        ensures '&' !in all[i]
      {
        if i < |q| {
          assert all[i] == q[i];
        }
      }
    }
    Regroup(base, "?", Join(q, "&"), "&", last);
    ParamsOf(base, all);
  }

  // Re-bracketing outside `ParamsAppended`, whose own context makes this
  // one step too costly.
  lemma Regroup(base: string, q: string, x: string, amp: string, l: string)
    ensures base + (q + x + amp) + l == base + q + (x + amp + l)
  {
  }

  /** The analytics request carries the range exactly when both bounds are
      set, and nothing else. */
  lemma AnalyticsParams(start: string, end: string)
    ensures start != "" && end != "" ==>
      Params(AnalyticsPath(QueryString(start, end))) == RangeParams(start, end)
    ensures start == "" || end == "" ==> Params(AnalyticsPath(QueryString(start, end))) == []
  {
    Fixed();
    if start != "" && end != "" {
      var p := RangeParams(start, end);
      var j := Join(p, "&");
      QueryStringForm(start, end);
      assert AnalyticsBase + ("?" + j) == AnalyticsBase + "?" + j;
      RangeParamsPlain(start, end);
      ParamsOf(AnalyticsBase, p);
    } else {
      var path := AnalyticsPath(QueryString(start, end));
      assert path == AnalyticsBase + "";
      assert AnalyticsBase + "" == AnalyticsBase;
      QueryPartNone(AnalyticsBase);
    }
  }


  /** A date typed in a date input goes over the wire as it is: its digits
      and dashes are all unreserved. */
  lemma DateTextUnencoded(d: Date)
    requires FourDigitYear(d)
    ensures EncodeURIComponent(Format(d)) == Format(d)
  {
    FormatShape(d);
    var s := Format(d);
    forall i | 0 <= i < |s|
      ensures Unreserved(s[i])
    {
      if i < 4 {
        assert s[i] == Digits(d.year, 4)[i];
      } else if 5 <= i < 7 {
        assert s[i] == Digits(d.month, 2)[i - 5];
      } else if 8 <= i {
        assert s[i] == Digits(d.day, 2)[i - 8];
      }
    }
    EncodeUnreserved(s);
  }
}

=== FILE: records.dfy ===
/** The field resolvers: total functions that turn a loosely-typed booking
    record into the display values of the table and the CSV export. */
module Records {
  import opened Js
  import opened Calendar

  /** A booking record as the bookings endpoint returns it. The field names
      are the record's JSON keys; several are aliases of one logical field. */
  datatype Booking = Booking(
    created_at: Value,
    patient_first: Value,
    patient_last: Value,
    patient_dob: Value,
    dob: Value,
    patient_status: Value,
    appointment_date: Value,
    appointment_time: Value,
    appointment_type: Value,
    insurance: Value,
    insurance_carrier: Value,
    insCarrier: Value,
    carrier: Value,
    no_insurance: Value,
    noInsurance: Value)

  // ---------------------------------------------------------------------------
  // Appointment type

  /** The appointment codes the portal knows, with their labels. */
  const ApptTypeLabels: map<string, string> :=
    map["adult_cleaning" := "Adult Cleaning", "child_cleaning" := "Child Cleaning",
        "emergency" := "Emergency", "consult" := "Consult"]

  /** `apptTypeLabel(t)`: the label of a known code, compared without regard to
      case; any other value is shown as it is. */
  function ApptTypeLabel(t: Value): (r: string)
    ensures Lower(OrEmpty(t)) in ApptTypeLabels ==> r == ApptTypeLabels[Lower(OrEmpty(t))]
    ensures Lower(OrEmpty(t)) !in ApptTypeLabels ==> r == OrEmpty(t)
  {
    var x := Lower(OrEmpty(t));
    if x == "adult_cleaning" then "Adult Cleaning"
    else if x == "child_cleaning" then "Child Cleaning"
    else if x == "emergency" then "Emergency"
    else if x == "consult" then "Consult"
    else OrEmpty(t)
  }

  /** Labelling is stable: the label of a label is the label itself, because
      no label lower-cases to a code. */
  lemma ApptTypeLabelIdempotent(t: Value)
    ensures ApptTypeLabel(Str(ApptTypeLabel(t))) == ApptTypeLabel(t)
  {
    LabelsAreStable();
    var x := Lower(OrEmpty(t));
    if x !in ApptTypeLabels && OrEmpty(t) != "" {
      assert OrEmpty(Str(OrEmpty(t))) == OrEmpty(t);
    }
  }

  lemma LabelOfText(s: string, lowered: string)
    requires s != "" && Lower(s) == lowered
    ensures ApptTypeLabel(Str(s)) == if lowered in ApptTypeLabels then ApptTypeLabels[lowered] else s
  {
  }

  lemma LabelsAreStable()
    ensures ApptTypeLabel(Str("Adult Cleaning")) == "Adult Cleaning"
    ensures ApptTypeLabel(Str("Child Cleaning")) == "Child Cleaning"
    ensures ApptTypeLabel(Str("Emergency")) == "Emergency"
    ensures ApptTypeLabel(Str("Consult")) == "Consult"
  {
    AdultStable();
    ChildStable();
    EmergencyStable();
    ConsultStable();
  }

  // One lemma per label: each evaluates `Lower` on its own literal, which
  // is too costly to do four times in one proof.
  lemma AdultStable() ensures ApptTypeLabel(Str("Adult Cleaning")) == "Adult Cleaning" {
    LabelOfText("Adult Cleaning", "adult cleaning");
  }
  lemma ChildStable() ensures ApptTypeLabel(Str("Child Cleaning")) == "Child Cleaning" {
    LabelOfText("Child Cleaning", "child cleaning");
  }
  lemma EmergencyStable() ensures ApptTypeLabel(Str("Emergency")) == "Emergency" {
    LabelOfText("Emergency", "emergency");
  }
  lemma ConsultStable() ensures ApptTypeLabel(Str("Consult")) == "Consult" {
    LabelOfText("Consult", "consult");
  }

  /** Codes are recognised in any letter case, and a missing type shows as
      the empty string. */
  lemma ApptTypeLabelExamples()
    ensures ApptTypeLabel(Str("ADULT_CLEANING")) == "Adult Cleaning"
    ensures ApptTypeLabel(Str("whitening")) == "whitening"
    ensures ApptTypeLabel(Undefined) == "" && ApptTypeLabel(Null) == ""
  {
    LabelOfText("ADULT_CLEANING", "adult_cleaning");
    LabelOfText("whitening", "whitening");
  }

  // ---------------------------------------------------------------------------
  // Insurance

  /** `row.insurance || row.insurance_carrier || row.insCarrier || row.carrier || ""` */
  function InsuranceAlias(row: Booking): (v: Value)
    ensures Truthy(row.insurance) ==> v == row.insurance
    ensures !Truthy(row.insurance) && Truthy(row.insurance_carrier) ==> v == row.insurance_carrier
    ensures !Truthy(row.insurance) && !Truthy(row.insurance_carrier) && Truthy(row.insCarrier)
            ==> v == row.insCarrier
    ensures !Truthy(row.insurance) && !Truthy(row.insurance_carrier) && !Truthy(row.insCarrier)
            ==> v == Or(row.carrier, Str(""))
  {
    Or(Or(Or(Or(row.insurance, row.insurance_carrier), row.insCarrier), row.carrier), Str(""))
  }

  /** `row.no_insurance ?? row.noInsurance ?? null` */
  function NoInsuranceFlag(row: Booking): (v: Value)
    ensures !row.no_insurance.Undefined? && !row.no_insurance.Null? ==> v == row.no_insurance
    ensures (row.no_insurance.Undefined? || row.no_insurance.Null?) ==> v == Coalesce(row.noInsurance, Null)
  {
    Coalesce(Coalesce(row.no_insurance, row.noInsurance), Null)
  }

  const SelfPay: string := "Self-Pay"
  const Dash: string := "\U{2014}"

  /** `insuranceLabel(row)`: the trimmed text of the first truthy insurance
      alias; when that is blank, "Self-Pay" if the patient said they have no
      insurance, and a dash otherwise. The label is never blank. */
  function InsuranceLabel(row: Booking): (r: string)
    ensures r == Trim(ToStr(InsuranceAlias(row))) || r == SelfPay || r == Dash
  {
    var ins := Trim(ToStr(InsuranceAlias(row)));
    if ins != "" then ins
    else if NoInsuranceFlag(row) == Bool(true) then SelfPay
    else Dash
  }

  /** The insurance cell is never blank and never starts or ends with white
      space. */
  lemma InsuranceLabelTrimmed(row: Booking)
    ensures var r := InsuranceLabel(row); r != [] && !IsSpace(r[0]) && !IsSpace(r[|r| - 1])
  {
    var ins := Trim(ToStr(InsuranceAlias(row)));
    if ins != "" {
      assert InsuranceLabel(row) == ins;
    } else {
      FallbacksTrimmed();
      assert InsuranceLabel(row) in {SelfPay, Dash};
    }
  }

  lemma FallbacksTrimmed()
    ensures SelfPay != [] && !IsSpace(SelfPay[0]) && !IsSpace(SelfPay[|SelfPay| - 1])
    ensures Dash != [] && !IsSpace(Dash[0]) && !IsSpace(Dash[|Dash| - 1])
  {
    assert SelfPay[0] == 'S' && SelfPay[|SelfPay| - 1] == 'y';
    assert Dash == ['\U{2014}'];
  }

  /** The first truthy alias wins, in the order insurance, insurance_carrier,
      insCarrier, carrier, provided its text is not blank. */
  lemma InsurancePrecedence(row: Booking)
    ensures Truthy(row.insurance) && Trim(ToStr(row.insurance)) != ""
            ==> InsuranceLabel(row) == Trim(ToStr(row.insurance))
    ensures !Truthy(row.insurance) && Truthy(row.insurance_carrier)
            && Trim(ToStr(row.insurance_carrier)) != ""
            ==> InsuranceLabel(row) == Trim(ToStr(row.insurance_carrier))
    ensures !Truthy(row.insurance) && !Truthy(row.insurance_carrier) && Truthy(row.insCarrier)
            && Trim(ToStr(row.insCarrier)) != ""
            ==> InsuranceLabel(row) == Trim(ToStr(row.insCarrier))
    ensures !Truthy(row.insurance) && !Truthy(row.insurance_carrier) && !Truthy(row.insCarrier)
            && Truthy(row.carrier) && Trim(ToStr(row.carrier)) != ""
            ==> InsuranceLabel(row) == Trim(ToStr(row.carrier))
  {
  }

  /** A truthy but blank alias (only white space) hides every later alias:
      the label then falls back to "Self-Pay" or the dash. */
  lemma {:induction false} BlankAliasShadowsLaterOnes(row: Booking)
    requires row.insurance.Str? && row.insurance.s != "" && Trim(row.insurance.s) == ""
    ensures InsuranceLabel(row) == SelfPay || InsuranceLabel(row) == Dash
    ensures InsuranceLabel(row) == SelfPay <==> NoInsuranceFlag(row) == Bool(true)
  {
    assert InsuranceAlias(row) == row.insurance;
    assert SelfPay != Dash;
  }

  /** With no usable alias, the label is "Self-Pay" exactly when `no_insurance`
      is the boolean `true`, or `no_insurance` is null or missing and
      `noInsurance` is the boolean `true`; a string "true" does not count,
      and `no_insurance: false` masks `noInsurance: true`. */
  lemma {:induction false} SelfPayRule(row: Booking)
    requires Trim(ToStr(InsuranceAlias(row))) == ""
    ensures InsuranceLabel(row) == SelfPay
            <==> row.no_insurance == Bool(true)
                 || ((row.no_insurance.Undefined? || row.no_insurance.Null?) && row.noInsurance == Bool(true))
    ensures InsuranceLabel(row) != SelfPay ==> InsuranceLabel(row) == Dash
  {
    assert SelfPay != Dash;
    if row.no_insurance.Undefined? || row.no_insurance.Null? {
      if row.noInsurance.Undefined? {
        assert NoInsuranceFlag(row) == Null;
      } else {
        assert NoInsuranceFlag(row) == Coalesce(row.noInsurance, Null);
      }
    }
  }

  // ---------------------------------------------------------------------------
  // Patient status

  const NewPatientBadge: string := "<span class=\"badge badge-new\">New Patient</span>"
  const ExistingBadge: string := "<span class=\"badge badge-existing\">Existing</span>"

  /** The loose classification: the lower-cased status contains "new". */
  predicate IsNewPatient(status: Value) {
    Contains(Lower(OrEmpty(status)), "new")
  }

  /** `statusBadge(status)`: the New Patient badge for a status that mentions
      "new" in any letter case, the Existing badge for every other value. */
  function StatusBadge(status: Value): string {
    var s := Lower(OrEmpty(status));
    if Contains(s, "new") then NewPatientBadge else ExistingBadge
  }

  /** Every status gets exactly one of the two badges. */
  lemma StatusBadgeSpec(status: Value)
    ensures StatusBadge(status) == NewPatientBadge <==> IsNewPatient(status)
    ensures StatusBadge(status) == ExistingBadge <==> !IsNewPatient(status)
  {
    assert NewPatientBadge[25] != ExistingBadge[25];
  }

  /** The heuristic is a substring test: "Renewal" counts as new, so does
      "NEW". */
  lemma NewPatientExamples()
    ensures StatusBadge(Str("Renewal")) == NewPatientBadge
    ensures StatusBadge(Str("NEW")) == NewPatientBadge
  {
    assert Lower("Renewal") == "renewal";
    assert Contains("newal", "new");
    assert Lower("NEW") == "new";
  }

  /** An empty or missing status, or "existing", gives the Existing badge. */
  lemma ExistingPatientExamples()
    ensures StatusBadge(Str("existing")) == ExistingBadge
    ensures StatusBadge(Str("")) == ExistingBadge
    ensures StatusBadge(Undefined) == ExistingBadge
  {
    assert Lower("existing") == "existing";
    MissingCharNotContained("existing", "new", 'w');
    assert Lower("") == "";
    MissingCharNotContained("", "new", 'n');
  }

  // ---------------------------------------------------------------------------
  // Date booked, name and date of birth

  /** The "Date Booked" value: `String(r.created_at || "").replace("T", " ").slice(0, 10)`. */
  function BookedDate(r: Booking): (d: string)
    ensures |d| <= 10
  {
    Take(ReplaceFirst(OrEmpty(r.created_at), 'T', ' '), 10)
  }

  /** For an ISO instant `YYYY-MM-DDT...` the booked value is its calendar date. */
  lemma BookedOfTimestamp(r: Booking, day: Date, rest: string)
    requires FourDigitYear(day) && r.created_at == Str(Format(day) + ("T" + rest))
    ensures BookedDate(r) == Format(day)
  {
    FormatShape(day);
    var f := Format(day);
    assert 'T' !in f by {
      assert forall i :: 0 <= i < |f| ==> f[i] == '-' || IsDigit(f[i]);
    }
    ReplaceFirstAfter(f, "T" + rest, 'T', ' ');
    assert ReplaceFirst(f + ("T" + rest), 'T', ' ')[..10] == f;
  }

  /** A `created_at` of at most ten characters without `T` is shown as it is. */
  lemma BookedOfPlain(r: Booking, s: string)
    requires r.created_at == Str(s) && 'T' !in s && |s| <= 10
    ensures BookedDate(r) == s
  {
    assert ReplaceFirst(s, 'T', ' ') == s;
  }

  /** The patient name: `${r.patient_first || ""} ${r.patient_last || ""}`, trimmed. */
  function PatientName(r: Booking): (n: string)
    ensures !Truthy(r.patient_first) && !Truthy(r.patient_last) ==> n == ""
    ensures n == [] || (!IsSpace(n[0]) && !IsSpace(n[|n| - 1]))
  {
    Trim(OrEmpty(r.patient_first) + " " + OrEmpty(r.patient_last))
  }

  /** The name holds both parts, one space apart; with one part missing it is
      the other part, trimmed, and the separating space never shows. */
  lemma PatientNameOf(r: Booking)
    ensures Unpadded(OrEmpty(r.patient_first)) && Unpadded(OrEmpty(r.patient_last)) ==>
      PatientName(r) == OrEmpty(r.patient_first) + " " + OrEmpty(r.patient_last)
    ensures !Truthy(r.patient_last) ==> PatientName(r) == Trim(OrEmpty(r.patient_first))
    ensures !Truthy(r.patient_first) ==> PatientName(r) == Trim(OrEmpty(r.patient_last))
  {
    var f, l := OrEmpty(r.patient_first), OrEmpty(r.patient_last);
    if Unpadded(f) && Unpadded(l) {
      TrimUnpadded(f + " " + l);
    }
    if l == "" {
      assert f + " " + l == f + [' '];
      TrimTrailingSpace(f, ' ');
    }
    if f == "" {
      assert f + " " + l == [' '] + l;
      TrimLeadingSpace(' ', l);
    }
  }

  /** The date of birth: the first ten characters of `patient_dob`, or of the
      `dob` alias when `patient_dob` is falsy. */
  function DobText(r: Booking): (d: string)
    ensures |d| <= 10
    ensures Truthy(r.patient_dob) ==> d <= ToStr(r.patient_dob)
    ensures !Truthy(r.patient_dob) ==> d <= OrEmpty(r.dob)
  {
    Take(OrEmpty(Or(r.patient_dob, r.dob)), 10)
  }

  /** A date of birth stored as `YYYY-MM-DD`, with or without a time after
      it, shows as that date; `dob` is read only when `patient_dob` is
      falsy. */
  lemma DobOfDate(r: Booking, day: Date, rest: string)
    requires FourDigitYear(day)
    requires r.patient_dob == Str(Format(day) + rest)
             || (!Truthy(r.patient_dob) && r.dob == Str(Format(day) + rest))
    ensures DobText(r) == Format(day)
  {
    FormatShape(day);
    var f := Format(day);
    assert Take(f + rest, 10) == f by {
      assert (f + rest)[..10] == f;
    }
  }
}

=== FILE: search.dfy ===
/** The search filter shared by the table and the CSV export: a trimmed,
    lower-cased query matched as a substring of a space-joined blob of nine
    record fields. */
module Search {
  import opened Js
  import opened Records

  /** The search box value as the filter uses it: trimmed, then lower-cased. */
  function Query(input: string): (q: string)
    ensures q == "" <==> Trim(input) == ""
  {
    Lower(Trim(input))
  }

  /** The nine searched fields, in blob order. The `insCarrier` alias is not
      among them. */
  function SearchedFields(r: Booking): seq<Value> {
    [r.patient_first, r.patient_last, r.patient_status,
     r.appointment_date, r.appointment_time, r.appointment_type,
     r.insurance, r.insurance_carrier, r.carrier]
  }

  /** Each searched field as `String(x || "").toLowerCase()`, joined with spaces. */
  function Blob(r: Booking): string {
    var fields := SearchedFields(r);
    Join(seq(|fields|, i requires 0 <= i < |fields| => Lower(OrEmpty(fields[i]))), " ")
  }

  predicate Matches(r: Booking, q: string) {
    Contains(Blob(r), q)
  }

  /** `rows.filter(r => blob(r).includes(q))` */
  function FilterMatching(rows: seq<Booking>, q: string): (out: seq<Booking>)
    ensures |out| <= |rows|
    ensures forall x :: x in out ==> x in rows && Matches(x, q)
  {
    if rows == [] then []
    else (if Matches(rows[0], q) then [rows[0]] else []) + FilterMatching(rows[1..], q)
  }

  /** The rows the table shows and the export writes for query `q`: all of
      them for an empty query, the matching ones otherwise. */
  function Filter(rows: seq<Booking>, q: string): seq<Booking> {
    if q == "" then rows else FilterMatching(rows, q)
  }

  /** `a` is `b` with some elements left out, order kept. */
  predicate IsSubsequence<T(==)>(a: seq<T>, b: seq<T>)
    decreases |b|
  {
    if a == [] then true
    else if b == [] then false
    else if a[0] == b[0] then IsSubsequence(a[1..], b[1..])
    else IsSubsequence(a, b[1..])
  }

  /** How many rows match `q`. */
  function CountMatching(rows: seq<Booking>, q: string): nat {
    if rows == [] then 0 else (if Matches(rows[0], q) then 1 else 0) + CountMatching(rows[1..], q)
  }

  lemma {:induction false} SubsequenceDropFront<T>(a: seq<T>, b: seq<T>)
    requires a != [] && IsSubsequence(a, b)
    ensures IsSubsequence(a[1..], b)
    decreases |b|, 0
  {
    if a[0] != b[0] {
      SubsequenceDropFront(a, b[1..]);
    }
    SubsequenceExtend(a[1..], b[1..], b[0]);
    assert [b[0]] + b[1..] == b;
  }

  /** A subsequence of `b` is a subsequence of `b` with one more element in front. */
  lemma {:induction false} SubsequenceExtend<T>(a: seq<T>, b: seq<T>, x: T)
    requires IsSubsequence(a, b)
    ensures IsSubsequence(a, [x] + b)
    decreases |b|, 1
  {
    var xb := [x] + b;
    assert xb[1..] == b;
    if a != [] && a[0] == x {
      SubsequenceDropFront(a, b);
    }
  }

  /** An empty query would match every row anyway: the `!q` shortcut does
      not change the result. */
  lemma {:induction false} EmptyQueryMatchesAll(rows: seq<Booking>)
    ensures FilterMatching(rows, "") == rows
  {
    if rows != [] {
      EmptyQueryMatchesAll(rows[1..]);
      ContainsEmpty(Blob(rows[0]));
      assert rows == [rows[0]] + rows[1..];
    }
  }

  /** A blank search box shows the cached rows unchanged. */
  lemma BlankSearchShowsAll(rows: seq<Booking>, input: string)
    requires Trim(input) == ""
    ensures Filter(rows, Query(input)) == rows
  {
  }

  /** The filter keeps exactly the matching rows, in their cached order:
      the result is a subsequence of the rows, holds a row iff it matches, and
      has as many entries as there are matching rows. */
  lemma {:induction false} FilterMatchingSpec(rows: seq<Booking>, q: string)
    ensures IsSubsequence(FilterMatching(rows, q), rows)
    ensures forall x :: x in FilterMatching(rows, q) <==> x in rows && Matches(x, q)
    ensures |FilterMatching(rows, q)| == CountMatching(rows, q)
  {
    if rows != [] {
      FilterMatchingSpec(rows[1..], q);
      var rest := FilterMatching(rows[1..], q);
      assert rows == [rows[0]] + rows[1..];
      if Matches(rows[0], q) {
        var out := [rows[0]] + rest;
        assert FilterMatching(rows, q) == out;
        assert out[0] == rows[0] && out[1..] == rest;
      } else {
        assert FilterMatching(rows, q) == rest;
        SubsequenceExtend(rest, rows[1..], rows[0]);
      }
    }
  }

  lemma FilterSpec(rows: seq<Booking>, q: string)
    ensures IsSubsequence(Filter(rows, q), rows)
    ensures forall x :: x in Filter(rows, q) <==> x in rows && Matches(x, q)
    ensures |Filter(rows, q)| == CountMatching(rows, q)
  {
    if q == "" {
      EmptyQueryMatchesAll(rows);
    }
    FilterMatchingSpec(rows, q);
  }

  /** Filtering the filtered rows again with the same query changes nothing. */
  lemma {:induction false} FilterMatchingIdempotent(rows: seq<Booking>, q: string)
    ensures FilterMatching(FilterMatching(rows, q), q) == FilterMatching(rows, q)
  {
    if rows != [] {
      FilterMatchingIdempotent(rows[1..], q);
      var rest := FilterMatching(rows[1..], q);
      if Matches(rows[0], q) {
        var out := [rows[0]] + rest;
        assert FilterMatching(rows, q) == out;
        assert out[0] == rows[0] && out[1..] == rest;
        assert FilterMatching(out, q) == [rows[0]] + FilterMatching(rest, q);
      } else {
        assert FilterMatching(rows, q) == rest;
      }
    }
  }

  lemma FilterIdempotent(rows: seq<Booking>, q: string)
    ensures Filter(Filter(rows, q), q) == Filter(rows, q)
  {
    FilterMatchingIdempotent(rows, q);
  }

  /** Typing more narrows the result: a query that contains another keeps a
      subsequence of what the shorter query keeps. */
  lemma {:induction false} FilterNarrows(rows: seq<Booking>, q1: string, q2: string)
    requires Contains(q2, q1)
    ensures IsSubsequence(Filter(rows, q2), Filter(rows, q1))
  {
    if q1 == "" {
      EmptyQueryMatchesAll(rows);
    }
    FilterMatchingNarrows(rows, q1, q2);
    if q2 == "" {
      EmptyQueryMatchesAll(rows);
    }
  }

  lemma {:induction false} FilterMatchingNarrows(rows: seq<Booking>, q1: string, q2: string)
    requires Contains(q2, q1)
    ensures IsSubsequence(FilterMatching(rows, q2), FilterMatching(rows, q1))
  {
    if rows != [] {
      FilterMatchingNarrows(rows[1..], q1, q2);
      var r := rows[0];
      var rest1, rest2 := FilterMatching(rows[1..], q1), FilterMatching(rows[1..], q2);
      if Matches(r, q2) {
        ContainsTransitive(Blob(r), q2, q1);
        var a, b := [r] + rest2, [r] + rest1;
        assert FilterMatching(rows, q2) == a && FilterMatching(rows, q1) == b;
        assert a[0] == b[0] && a[1..] == rest2 && b[1..] == rest1;
      } else if Matches(r, q1) {
        assert FilterMatching(rows, q2) == rest2 && FilterMatching(rows, q1) == [r] + rest1;
        SubsequenceExtend(rest2, rest1, r);
      } else {
        assert FilterMatching(rows, q2) == rest2 && FilterMatching(rows, q1) == rest1;
      }
    }
  }
}

=== FILE: series.dfy ===
/** `buildLineSeries`: one zero-initialised bucket per calendar day of the
    window, then one increment per booking whose appointment date falls on
    one of those days. */
module Series {
  import opened Js
  import opened Calendar
  import opened Records

  /** The bucket key of a booking: `String(b.appointment_date || "").slice(0, 10)`.
      The series counts appointments, not the day a booking was made. */
  function DayKey(b: Booking): (k: string)
    ensures |k| <= 10 && k <= OrEmpty(b.appointment_date)
  {
    Take(OrEmpty(b.appointment_date), 10)
  }

  /** How many of `bs` fall on `day`. */
  function CountOn(bs: seq<Booking>, day: string): nat {
    if bs == [] then 0
    else CountOn(bs[..|bs| - 1], day) + (if DayKey(bs[|bs| - 1]) == day then 1 else 0)
  }

  /** How many of `bs` fall on any of the days in `labels`. */
  function CountIn(bs: seq<Booking>, labels: seq<string>): nat {
    if bs == [] then 0
    else CountIn(bs[..|bs| - 1], labels) + (if DayKey(bs[|bs| - 1]) in labels then 1 else 0)
  }

  function Sum(s: seq<nat>): nat {
    if s == [] then 0 else Sum(s[..|s| - 1]) + s[|s| - 1]
  }

  /** The printed days `s`, `s + 1`, ..., `s + (n - 1)`. */
  function DayRun(s: Date, n: nat): (r: seq<string>)
    requires Valid(s)
    ensures |r| == n
    ensures forall i :: 0 <= i < n ==> r[i] == Format(AddDays(s, i))
  {
    seq(n, i requires 0 <= i < n => Format(AddDays(s, i)))
  }

  /** `labels` are the days from `first` to `last`, each printed once and in
      order, or nothing when `last` is before `first`. */
  predicate DaysBetween(labels: seq<string>, first: Date, last: Date)
    requires Valid(first)
  {
    (NotAfter(first, last) ==> |labels| >= 1 && labels == DayRun(first, |labels|) && AddDays(first, |labels| - 1) == last)
    && (Before(last, first) ==> labels == [])
  }

  /** `counts[i]` is the number of bookings on `labels[i]`, and the counts add
      up to the number of bookings that fall on any label. */
  predicate Tally(bookings: seq<Booking>, labels: seq<string>, counts: seq<nat>) {
    |counts| == |labels|
    && (forall i :: 0 <= i < |labels| ==> counts[i] == CountOn(bookings, labels[i]))
    && Sum(counts) == CountIn(bookings, labels)
  }

  /** A date input value the series can count from: a `YYYY-MM-DD` date with
      a four-digit year. */
  predicate DateInput(s: string) {
    ParseDate(s).Some? && ParseDate(s).value.year >= 1000
  }

  /** What the series needs of its arguments: each bound is empty or a date
      input value, `today` has a four-digit year when a bound falls back on
      it, and the last day is not 31 December 9999 (past it the printed
      day no longer sorts after the end date, so the loop runs past the
      end date). */
  predicate SeriesArgs(start: string, end: string, today: Date) {
    (start != "" ==> DateInput(start))
    && (end != "" ==> DateInput(end) && ParseDate(end).value != Date(9999, 12, 31))
    && (start == "" ==> FourDigitYear(today) && FourDigitYear(AddDays(today, -29)))
    && (end == "" ==> FourDigitYear(today) && today != Date(9999, 12, 31))
  }

  /** `start || addDays(todayYYYYMMDD(), -29)` as a date. */
  function FirstDay(start: string, today: Date): (d: Date)
    requires start != "" ==> DateInput(start)
    requires start == "" ==> FourDigitYear(today) && FourDigitYear(AddDays(today, -29))
    ensures FourDigitYear(d)
  {
    if start != "" then ParseDate(start).value else AddDays(today, -29)
  }

  /** `end || todayYYYYMMDD()` as a date. */
  function LastDay(end: string, today: Date): (d: Date)
    requires end != "" ==> DateInput(end)
    requires end == "" ==> FourDigitYear(today)
    ensures FourDigitYear(d)
  {
    if end != "" then ParseDate(end).value else today
  }

  lemma {:induction false} SumAppend(s: seq<nat>, x: nat)
    ensures Sum(s + [x]) == Sum(s) + x
  {
    assert (s + [x])[..|s|] == s;
  }

  lemma {:induction false} SumZeros(s: seq<nat>)
    requires forall i :: 0 <= i < |s| ==> s[i] == 0
    ensures Sum(s) == 0
  {
    if s != [] {
      SumZeros(s[..|s| - 1]);
    }
  }

  /** Adding one to a bucket adds one to the total. */
  lemma {:induction false} SumIncrement(s: seq<nat>, k: nat)
    requires k < |s|
    ensures Sum(s[k := s[k] + 1]) == Sum(s) + 1
  {
    var t := s[k := s[k] + 1];
    if k == |s| - 1 {
      assert t[..|t| - 1] == s[..|s| - 1];
    } else {
      assert t[..|t| - 1] == s[..|s| - 1][k := s[k] + 1];
      SumIncrement(s[..|s| - 1], k);
    }
  }

  lemma DayRunAppend(s: Date, n: nat)
    requires Valid(s)
    ensures DayRun(s, n + 1) == DayRun(s, n) + [Format(AddDays(s, n))]
  {
  }

  /** The days of a run lie between its first and last day. */
  lemma RunDayBounds(s: Date, n: nat, i: nat)
    requires Valid(s) && i < n
    ensures NotAfter(s, AddDays(s, i)) && NotAfter(AddDays(s, i), AddDays(s, n - 1))
  {
    if i > 0 {
      AddDaysForward(s, i);
    } else {
      assert AddDays(s, 0) == s;
    }
    if i < n - 1 {
      AddDaysAdd(s, i, n - 1 - i);
      AddDaysForward(AddDays(s, i), n - 1 - i);
    }
  }

  /** Every day of a run from `s` to `e` has a four-digit year. */
  lemma RunDay(s: Date, e: Date, n: nat, i: nat)
    requires FourDigitYear(s) && FourDigitYear(e) && n >= 1 && AddDays(s, n - 1) == e && i < n
    ensures FourDigitYear(AddDays(s, i))
  {
    RunDayBounds(s, n, i);
    BetweenFourDigit(s, AddDays(s, i), e);
  }

  /** Every label of a run from `s` to `e` reads back as its day. */
  lemma RunParses(s: Date, e: Date, n: nat, i: nat)
    requires FourDigitYear(s) && FourDigitYear(e) && n >= 1 && AddDays(s, n - 1) == e && i < n
    ensures ParseDate(DayRun(s, n)[i]) == Some(AddDays(s, i))
  {
    RunDay(s, e, n, i);
    ParseFormat(AddDays(s, i));
  }

  /** No gaps: each label of a run is `addDays` of the one before it. */
  lemma RunConsecutive(s: Date, e: Date, n: nat, i: nat)
    requires FourDigitYear(s) && FourDigitYear(e) && n >= 1 && AddDays(s, n - 1) == e && i < n - 1
    ensures ParseDate(DayRun(s, n)[i]).Some? && DayRun(s, n)[i + 1] == AddDaysText(DayRun(s, n)[i], 1)
  {
    var d := AddDays(s, i);
    RunDay(s, e, n, i);
    ParseFormat(d);
    AddDaysAdd(s, i, 1);
    assert DayRun(s, n)[i] == Format(d) && DayRun(s, n)[i + 1] == Format(AddDays(d, 1));
  }

  /** Ascending: the string order of the labels, which the loop's `cur <= e`
      uses, is their position order. */
  lemma RunAscending(s: Date, e: Date, n: nat, i: nat, j: nat)
    requires FourDigitYear(s) && FourDigitYear(e) && n >= 1 && AddDays(s, n - 1) == e && i < j < n
    ensures LexLess(DayRun(s, n)[i], DayRun(s, n)[j])
  {
    var a, b := AddDays(s, i), AddDays(s, j);
    RunDay(s, e, n, i);
    RunDay(s, e, n, j);
    AddDaysAdd(s, i, j - i);
    AddDaysForward(a, j - i);
    FormatBefore(a, b);
    assert DayRun(s, n)[i] == Format(a) && DayRun(s, n)[j] == Format(b);
  }

  /** Complete: every day from `s` to `e` is a label. */
  lemma RunCovers(s: Date, e: Date, n: nat, x: Date)
    requires Valid(s) && n >= 1 && AddDays(s, n - 1) == e
    requires Valid(x) && NotAfter(s, x) && NotAfter(x, e)
    ensures Format(x) in DayRun(s, n)
  {
    Reach(s, x);
    var k: nat :| AddDays(s, k) == x;
    assert k < n by {
      if k > n - 1 {
        AddDaysAdd(s, n - 1, k - (n - 1));
        AddDaysForward(e, k - (n - 1));
      }
    }
    InRun(DayRun(s, n), k, Format(x));
  }

  lemma InRun(r: seq<string>, k: nat, t: string)
    requires k < |r| && r[k] == t
    ensures t in r
  {
  }

  /** A run holds no day twice. */
  lemma RunDistinct(s: Date, e: Date, n: nat)
    requires FourDigitYear(s) && FourDigitYear(e) && n >= 1 && AddDays(s, n - 1) == e
    ensures forall i, j :: 0 <= i < j < n ==> DayRun(s, n)[i] != DayRun(s, n)[j]
  {
    forall i, j | 0 <= i < j < n
      ensures DayRun(s, n)[i] != DayRun(s, n)[j]
    {
      RunAscending(s, e, n, i, j);
      LexLessIrreflexive(DayRun(s, n)[i]);
    }
  }

  /** The run from `s` to `e` has one length only: the number of days from
      `s` to `e` inclusive. */
  lemma RunLengthUnique(s: Date, e: Date, n: nat, m: nat)
    requires Valid(s) && n >= 1 && m >= 1 && AddDays(s, n - 1) == e && AddDays(s, m - 1) == e
    ensures n == m
  {
    AddDaysInjective(s, n - 1, m - 1);
  }

  /** One turn of the label loop: the next label is `addDays(cur, 1)`, still
      a four-digit-year date, one day further along the run. */
  lemma LabelStep(sd: Date, ed: Date, n: nat)
    requires FourDigitYear(sd) && FourDigitYear(ed) && ed != Date(9999, 12, 31)
    requires FourDigitYear(AddDays(sd, n)) && NotAfter(AddDays(sd, n), ed)
    ensures FourDigitYear(AddDays(sd, n + 1))
    ensures ParseDate(Format(AddDays(sd, n))).Some?
    ensures AddDaysText(Format(AddDays(sd, n)), 1) == Format(AddDays(sd, n + 1))
    ensures DayRun(sd, n + 1) == DayRun(sd, n) + [Format(AddDays(sd, n))]
    ensures Ord(AddDays(sd, n)) <= Ord(ed) && Ord(AddDays(sd, n)) < Ord(AddDays(sd, n + 1))
  {
    var cur := AddDays(sd, n);
    AddDaysStep(sd, n);
    NextFourDigit(cur, ed);
    ParseFormat(cur);
    DayRunAppend(sd, n);
    var nx := AddDays(sd, n + 1);
    assert nx == Next(cur) && Valid(nx) && Valid(ed);
    OrdMonotone(cur, nx);
    if cur != ed {
      OrdMonotone(cur, ed);
    }
  }

  /** When the label loop stops after `n` labels, those labels are the run
      from the first to the last day, or nothing when the window is empty. */
  lemma LabelsDone(sd: Date, ed: Date, n: nat)
    requires FourDigitYear(sd) && FourDigitYear(ed)
    requires n >= 1 ==> NotAfter(AddDays(sd, n - 1), ed)
    requires !NotAfter(AddDays(sd, n), ed)
    ensures NotAfter(sd, ed) ==> n >= 1 && AddDays(sd, n - 1) == ed
    ensures Before(ed, sd) ==> n == 0
  {
    if n == 0 {
      assert AddDays(sd, 0) == sd;
    } else {
      var last := AddDays(sd, n - 1);
      AddDaysStep(sd, n - 1);
      if last != ed {
        NextIsImmediate(last, ed);
      }
      RunDayBounds(sd, n, 0);
      assert AddDays(sd, 0) == sd;
    }
  }

  /** The days of a window are distinct and none is the empty string, as the
      counting loop needs. */
  lemma DaysBetweenDistinct(labels: seq<string>, first: Date, last: Date)
    requires FourDigitYear(first) && FourDigitYear(last) && DaysBetween(labels, first, last)
    ensures forall i, j :: 0 <= i < j < |labels| ==> labels[i] != labels[j]
    ensures forall i :: 0 <= i < |labels| ==> labels[i] != ""
  {
    if NotAfter(first, last) {
      RunDistinct(first, last, |labels|);
    }
  }

  /** The label loop of `buildLineSeries`: from the first day `s`, step one
      day at a time while the label is not after the last day `e`. */
  method DayLabels(s: string, e: string, ghost sd: Date, ghost ed: Date) returns (labels: seq<string>)
    requires FourDigitYear(sd) && FourDigitYear(ed) && ed != Date(9999, 12, 31)
    requires s == Format(sd) && e == Format(ed)
    ensures DaysBetween(labels, sd, ed)
  {
    labels := [];
    var cur := s;
    assert AddDays(sd, 0) == sd;
    while LexLe(cur, e)
      invariant FourDigitYear(AddDays(sd, |labels|)) && cur == Format(AddDays(sd, |labels|))
      invariant labels == DayRun(sd, |labels|)
      invariant |labels| >= 1 ==> NotAfter(AddDays(sd, |labels| - 1), ed)
      decreases Ord(ed) + 1 - Ord(AddDays(sd, |labels|))
    {
      FormatOrder(AddDays(sd, |labels|), ed);
      LabelStep(sd, ed, |labels|);
      labels := labels + [cur];
      cur := AddDaysText(cur, 1);
    }
    FormatOrder(AddDays(sd, |labels|), ed);
    LabelsDone(sd, ed, |labels|);
  }

  /** `start || addDays(todayYYYYMMDD(), -29)`: the first label. */
  function WindowStart(start: string, today: Date): (s: string)
    requires start != "" ==> DateInput(start)
    requires start == "" ==> FourDigitYear(today) && FourDigitYear(AddDays(today, -29))
    ensures s == Format(FirstDay(start, today))
  {
    if start != "" then
      FormatParse(start);
      start
    else
      ParseFormat(today);
      AddDaysText(Format(today), -29)
  }

  /** `end || todayYYYYMMDD()`: the last label. */
  function WindowEnd(end: string, today: Date): (e: string)
    requires end != "" ==> DateInput(end)
    requires end == "" ==> FourDigitYear(today)
    ensures e == Format(LastDay(end, today))
  {
    if end != "" then
      FormatParse(end);
      end
    else
      Format(today)
  }

  lemma CountOnStep(bs: seq<Booking>, j: nat, day: string)
    requires j < |bs|
    ensures CountOn(bs[..j + 1], day) == CountOn(bs[..j], day) + (if DayKey(bs[j]) == day then 1 else 0)
  {
    assert bs[..j + 1][..j] == bs[..j];
  }

  lemma CountInStep(bs: seq<Booking>, j: nat, labels: seq<string>)
    requires j < |bs|
    ensures CountIn(bs[..j + 1], labels) == CountIn(bs[..j], labels) + (if DayKey(bs[j]) in labels then 1 else 0)
  {
    assert bs[..j + 1][..j] == bs[..j];
  }

  /** One booking of the counting loop: the bucket `k` of its day key, if
      any, goes up by one and every bucket still counts its own day. */
  lemma TallyStep(bs: seq<Booking>, j: nat, labels: seq<string>, counts: seq<nat>, k: int)
    requires j < |bs| && |counts| == |labels|
    requires forall i, i' :: 0 <= i < i' < |labels| ==> labels[i] != labels[i']
    requires forall i :: 0 <= i < |labels| ==> counts[i] == CountOn(bs[..j], labels[i])
    requires 0 <= k < |labels| ==> labels[k] == DayKey(bs[j])
    requires !(0 <= k < |labels|) ==> DayKey(bs[j]) !in labels
    requires Sum(counts) == CountIn(bs[..j], labels)
    ensures var next := if 0 <= k < |labels| then counts[k := counts[k] + 1] else counts;
            (forall i :: 0 <= i < |labels| ==> next[i] == CountOn(bs[..j + 1], labels[i]))
            && Sum(next) == CountIn(bs[..j + 1], labels)
  {
    forall i | 0 <= i < |labels| {
      CountOnStep(bs, j, labels[i]);
    }
    CountInStep(bs, j, labels);
    if 0 <= k < |labels| {
      SumIncrement(counts, k);
    }
  }

  /** The counting loop of `buildLineSeries`: one zero bucket per label,
      then one increment per booking whose day key is a label. */
  method CountByDay(bookings: seq<Booking>, labels: seq<string>) returns (counts: seq<nat>)
    requires forall i, j :: 0 <= i < j < |labels| ==> labels[i] != labels[j]
    requires forall i :: 0 <= i < |labels| ==> labels[i] != ""
    ensures Tally(bookings, labels, counts)
  {
    var idx := map i | 0 <= i < |labels| :: labels[i] := i;
    counts := seq(|labels|, _ => 0);
    SumZeros(counts);
    for j := 0 to |bookings|
      invariant |counts| == |labels|
      invariant forall i :: 0 <= i < |labels| ==> counts[i] == CountOn(bookings[..j], labels[i])
      invariant Sum(counts) == CountIn(bookings[..j], labels)
    {
      var d := DayKey(bookings[j]);
      if d != "" && d in idx {
        var k := idx[d];
        TallyStep(bookings, j, labels, counts, k);
        counts := counts[k := counts[k] + 1];
      } else {
        TallyStep(bookings, j, labels, counts, -1);
      }
    }
    assert bookings[..|bookings|] == bookings;
  }

  /** `buildLineSeries(bookings, start, end)`, with `""` for a missing bound
      and the clock's date passed in as `today`. */
  method BuildLineSeries(bookings: seq<Booking>, start: string, end: string, today: Date)
    returns (labels: seq<string>, counts: seq<nat>)
    requires SeriesArgs(start, end, today)
    ensures DaysBetween(labels, FirstDay(start, today), LastDay(end, today))
    ensures Tally(bookings, labels, counts)
  {
    var s, e := WindowStart(start, today), WindowEnd(end, today);
    ghost var sd, ed := FirstDay(start, today), LastDay(end, today);
    labels := DayLabels(s, e, sd, ed);
    DaysBetweenDistinct(labels, sd, ed);
    counts := CountByDay(bookings, labels);
  }
}

=== FILE: uri.dfy ===
/** `encodeURIComponent`: every character outside the unreserved set is
    written as the percent-encoded bytes of its UTF-8 form, with upper-case
    hexadecimal digits. A decoder stands beside it to show that the encoding
    loses nothing. */
module Uri {
  import opened Js

  /** The characters `encodeURIComponent` leaves alone:
      `A-Z a-z 0-9 - _ . ! ~ * ' ( )`. */
  predicate Unreserved(c: char) {
    'A' <= c <= 'Z' || 'a' <= c <= 'z' || '0' <= c <= '9'
    || c == '-' || c == '_' || c == '.' || c == '!' || c == '~'
    || c == '*' || c == '\'' || c == '(' || c == ')'
  }

  predicate IsByte(b: int) {
    0 <= b < 0x100
  }

  predicate AllBytes(bs: seq<int>) {
    forall i :: 0 <= i < |bs| ==> IsByte(bs[i])
  }

  /** The UTF-8 form of one character. */
  function Utf8(c: char): (bs: seq<int>)
    ensures 1 <= |bs| <= 4 && AllBytes(bs)
    ensures |bs| == 1 <==> (c as int) < 0x80
    ensures |bs| == 2 <==> 0x80 <= (c as int) < 0x800
    ensures |bs| == 3 <==> 0x800 <= (c as int) < 0x1_0000
    ensures |bs| == 4 <==> 0x1_0000 <= (c as int)
  {
    var n := c as int;
    if n < 0x80 then [n]
    else if n < 0x800 then [0xC0 + n / 0x40, 0x80 + n % 0x40]
    else if n < 0x1_0000 then [0xE0 + n / 0x1000, 0x80 + n / 0x40 % 0x40, 0x80 + n % 0x40]
    else [0xF0 + n / 0x4_0000, 0x80 + n / 0x1000 % 0x40, 0x80 + n / 0x40 % 0x40, 0x80 + n % 0x40]
  }

  /** An upper-case hexadecimal digit. */
  function HexDigit(v: int): (c: char)
    requires 0 <= v < 16
    ensures Unreserved(c)
  {
    if v < 10 then (48 + v) as char else (55 + v) as char
  }

  predicate IsHex(c: char) {
    '0' <= c <= '9' || 'A' <= c <= 'F' || 'a' <= c <= 'f'
  }

  /** The value of a hexadecimal digit, in either case. */
  function HexValue(c: char): (v: int)
    requires IsHex(c)
    ensures 0 <= v < 16
  {
    if c <= '9' then c as int - 48 else if c <= 'F' then c as int - 55 else c as int - 87
  }

  /** `%XY` for one byte. */
  function Percent(b: int): (r: string)
    requires IsByte(b)
    ensures |r| == 3 && r[0] == '%' && Unreserved(r[1]) && Unreserved(r[2])
  {
    ['%', HexDigit(b / 16), HexDigit(b % 16)]
  }

  function Percents(bs: seq<int>): (r: string)
    requires AllBytes(bs)
    ensures |r| == 3 * |bs|
  {
    if bs == [] then "" else Percent(bs[0]) + Percents(bs[1..])
  }

  /** One character as `encodeURIComponent` writes it. */
  function EncodeChar(c: char): (r: string)
    ensures Unreserved(c) ==> r == [c]
  {
    if Unreserved(c) then [c] else Percents(Utf8(c))
  }

  /** `encodeURIComponent(s)`. Every `char` is a Unicode scalar value, so
      there is no lone surrogate and the call never throws. */
  function EncodeURIComponent(s: string): string {
    if s == [] then "" else EncodeChar(s[0]) + EncodeURIComponent(s[1..])
  }

  /** The UTF-8 form of a whole text. */
  function Utf8Of(s: string): (bs: seq<int>)
    ensures AllBytes(bs)
  {
    if s == [] then [] else Utf8(s[0]) + Utf8Of(s[1..])
  }

  // ---------------------------------------------------------------------------
  // The decoder.

  /** `p` in front of a result that may be missing. */
  function Prepend<T>(p: seq<T>, r: Option<seq<T>>): Option<seq<T>> {
    if r.Some? then Some(p + r.value) else None
  }

  /** The bytes a percent-encoded text stands for: `%XY` is the byte `XY`,
      any other ASCII character its own code; `None` for a malformed escape
      or a character beyond ASCII. */
  function PercentDecode(s: string): Option<seq<int>> {
    if s == [] then Some([])
    else if s[0] == '%' then
      if |s| >= 3 && IsHex(s[1]) && IsHex(s[2])
      then Prepend([HexValue(s[1]) * 16 + HexValue(s[2])], PercentDecode(s[3..]))
      else None
    else if (s[0] as int) < 0x80 then Prepend([s[0] as int], PercentDecode(s[1..]))
    else None
  }

  /** How many bytes the UTF-8 sequence led by `b` has; 0 for a byte that
      cannot lead one. */
  function SequenceLength(b: int): nat {
    if 0 <= b < 0x80 then 1
    else if 0xC0 <= b < 0xE0 then 2
    else if 0xE0 <= b < 0xF0 then 3
    else if 0xF0 <= b < 0xF8 then 4
    else 0
  }

  /** The payload bits of a lead byte of a sequence of `k` bytes. */
  function LeadBits(b: int, k: nat): int {
    if k == 1 then b else if k == 2 then b - 0xC0 else if k == 3 then b - 0xE0 else b - 0xF0
  }

  predicate AllContinuation(bs: seq<int>) {
    forall i :: 0 <= i < |bs| ==> 0x80 <= bs[i] < 0xC0
  }

  /** Appends the six payload bits of each continuation byte to `v`. */
  function Accumulate(v: int, bs: seq<int>): int
    decreases |bs|
  {
    if bs == [] then v else Accumulate(v * 0x40 + (bs[0] - 0x80), bs[1..])
  }

  predicate IsScalar(n: int) {
    0 <= n < 0xD800 || 0xE000 <= n < 0x11_0000
  }

  /** The text a UTF-8 byte sequence stands for; `None` when it is not
      well formed. */
  function Utf8Decode(bs: seq<int>): Option<string>
    decreases |bs|
  {
    if bs == [] then Some([])
    else
      var k := SequenceLength(bs[0]);
      if k == 0 || |bs| < k || !AllContinuation(bs[1..k]) then None
      else
        var n := Accumulate(LeadBits(bs[0], k), bs[1..k]);
        if IsScalar(n) then Prepend([n as char], Utf8Decode(bs[k..])) else None
  }

  /** `decodeURIComponent` on what `encodeURIComponent` can produce. */
  function Decode(s: string): Option<string> {
    var bs := PercentDecode(s);
    if bs.Some? then Utf8Decode(bs.value) else None
  }

  // ---------------------------------------------------------------------------
  // What the encoder promises.

  /** Text made only of unreserved characters goes through unchanged. */
  lemma {:induction false} EncodeUnreserved(s: string)
    requires forall i :: 0 <= i < |s| ==> Unreserved(s[i])
    ensures EncodeURIComponent(s) == s
  {
    if s != [] {
      EncodeUnreserved(s[1..]);
      assert s == [s[0]] + s[1..];
    }
  }

  /** Text that holds only unreserved characters and `%`. */
  predicate UriSafe(s: string) {
    forall i :: 0 <= i < |s| ==> Unreserved(s[i]) || s[i] == '%'
  }

  lemma SafeConcat(a: string, b: string)
    requires UriSafe(a) && UriSafe(b)
    ensures UriSafe(a + b)
  {
    forall i | 0 <= i < |a + b|
      ensures Unreserved((a + b)[i]) || (a + b)[i] == '%'
    {
      if i >= |a| {
        assert (a + b)[i] == b[i - |a|];
      }
    }
  }

  lemma {:induction false} PercentsSafe(bs: seq<int>)
    requires AllBytes(bs)
    ensures UriSafe(Percents(bs))
  {
    if bs != [] {
      PercentsSafe(bs[1..]);
      SafeConcat(Percent(bs[0]), Percents(bs[1..]));
    }
  }

  /** The encoded text holds only unreserved characters and `%`: no `&`,
      `=`, `?`, `#` or space can reach the query string. */
  lemma {:induction false} EncodeSafe(s: string)
    ensures UriSafe(EncodeURIComponent(s))
  {
    if s != [] {
      EncodeSafe(s[1..]);
      if !Unreserved(s[0]) {
        PercentsSafe(Utf8(s[0]));
      }
      SafeConcat(EncodeChar(s[0]), EncodeURIComponent(s[1..]));
    }
  }

  lemma HexRoundTrip(v: int)
    requires 0 <= v < 16
    ensures IsHex(HexDigit(v)) && HexValue(HexDigit(v)) == v
  {
  }

  lemma PercentByte(b: int, rest: string)
    requires IsByte(b)
    ensures PercentDecode(Percent(b) + rest) == Prepend([b], PercentDecode(rest))
  {
    HexRoundTrip(b / 16);
    HexRoundTrip(b % 16);
    var t := Percent(b) + rest;
    assert t[0] == '%' && t[1] == HexDigit(b / 16) && t[2] == HexDigit(b % 16);
    assert t[3..] == rest;
  }

  lemma PrependEmpty<T>(r: Option<seq<T>>)
    ensures Prepend([], r) == r
  {
    if r.Some? {
      assert [] + r.value == r.value;
    }
  }

  lemma PrependPrepend<T>(a: seq<T>, b: seq<T>, r: Option<seq<T>>)
    ensures Prepend(a, Prepend(b, r)) == Prepend(a + b, r)
  {
    if r.Some? {
      assert a + (b + r.value) == (a + b) + r.value;
    }
  }

  lemma {:induction false} PercentsDecode(bs: seq<int>, rest: string)
    requires AllBytes(bs)
    ensures PercentDecode(Percents(bs) + rest) == Prepend(bs, PercentDecode(rest))
  {
    if bs == [] {
      assert Percents(bs) + rest == rest;
      PrependEmpty(PercentDecode(rest));
    } else {
      var tail := Percents(bs[1..]) + rest;
      PercentsDecode(bs[1..], rest);
      PercentByte(bs[0], tail);
      assert Percents(bs) + rest == Percent(bs[0]) + tail;
      PrependPrepend([bs[0]], bs[1..], PercentDecode(rest));
      assert [bs[0]] + bs[1..] == bs;
    }
  }

  lemma EncodeCharBytes(c: char, rest: string)
    ensures PercentDecode(EncodeChar(c) + rest) == Prepend(Utf8(c), PercentDecode(rest))
  {
    if Unreserved(c) {
      var t := [c] + rest;
      assert t[0] == c && t[1..] == rest;
    } else {
      PercentsDecode(Utf8(c), rest);
    }
  }

  /** Percent-decoding the encoded text gives the UTF-8 bytes of the original. */
  lemma {:induction false} EncodeBytes(s: string)
    ensures PercentDecode(EncodeURIComponent(s)) == Some(Utf8Of(s))
  {
    if s != [] {
      EncodeBytes(s[1..]);
      EncodeCharBytes(s[0], EncodeURIComponent(s[1..]));
    }
  }

  lemma TwoBytes(n: int)
    requires 0x80 <= n < 0x800
    ensures Accumulate(n / 0x40, [0x80 + n % 0x40]) == n
  {
    assert Accumulate(n / 0x40, [0x80 + n % 0x40]) == Accumulate(n / 0x40 * 0x40 + n % 0x40, []);
  }

  lemma ThreeBytes(n: int)
    requires 0x800 <= n < 0x1_0000
    ensures Accumulate(n / 0x1000, [0x80 + n / 0x40 % 0x40, 0x80 + n % 0x40]) == n
  {
    var a, b, c := n / 0x1000, n / 0x40 % 0x40, n % 0x40;
    assert a * 0x40 + b == n / 0x40;
    assert Accumulate(a, [0x80 + b, 0x80 + c]) == Accumulate(a * 0x40 + b, [0x80 + c]);
    assert Accumulate(a * 0x40 + b, [0x80 + c]) == Accumulate((a * 0x40 + b) * 0x40 + c, []);
  }

  lemma FourBytes(n: int)
    requires 0x1_0000 <= n < 0x11_0000
    ensures Accumulate(n / 0x4_0000, [0x80 + n / 0x1000 % 0x40, 0x80 + n / 0x40 % 0x40, 0x80 + n % 0x40]) == n
  {
    var a, b, c, d := n / 0x4_0000, n / 0x1000 % 0x40, n / 0x40 % 0x40, n % 0x40;
    assert a * 0x40 + b == n / 0x1000;
    assert (a * 0x40 + b) * 0x40 + c == n / 0x40;
    assert Accumulate(a, [0x80 + b, 0x80 + c, 0x80 + d]) == Accumulate(a * 0x40 + b, [0x80 + c, 0x80 + d]);
    assert Accumulate(a * 0x40 + b, [0x80 + c, 0x80 + d]) == Accumulate((a * 0x40 + b) * 0x40 + c, [0x80 + d]);
    assert Accumulate((a * 0x40 + b) * 0x40 + c, [0x80 + d]) == Accumulate(((a * 0x40 + b) * 0x40 + c) * 0x40 + d, []);
  }

  /** The payload of a character's UTF-8 sequence is its code point. */
  lemma Utf8Payload(c: char)
    ensures var bs := Utf8(c); var k := |bs|;
      SequenceLength(bs[0]) == k && AllContinuation(bs[1..])
      && Accumulate(LeadBits(bs[0], k), bs[1..]) == c as int
  {
    var n := c as int;
    if n < 0x80 {
    } else if n < 0x800 {
      TwoBytes(n);
    } else if n < 0x1_0000 {
      ThreeBytes(n);
    } else {
      FourBytes(n);
    }
  }

  lemma Utf8Char(c: char, rest: seq<int>)
    ensures Utf8Decode(Utf8(c) + rest) == Prepend([c], Utf8Decode(rest))
  {
    var bs := Utf8(c);
    var k := |bs|;
    var t := bs + rest;
    Utf8Payload(c);
    assert t[0] == bs[0] && t[1..k] == bs[1..] && t[k..] == rest;
    assert IsScalar(c as int);
  }

  /** Decoding the UTF-8 form of a text gives the text back. */
  lemma {:induction false} Utf8RoundTrip(s: string)
    ensures Utf8Decode(Utf8Of(s)) == Some(s)
  {
    if s != [] {
      Utf8RoundTrip(s[1..]);
      Utf8Char(s[0], Utf8Of(s[1..]));
      assert s == [s[0]] + s[1..];
    }
  }

  /** Decoding what `encodeURIComponent` wrote gives back the original
      text, so two different values never encode alike. */
  lemma EncodeRoundTrip(s: string)
    ensures Decode(EncodeURIComponent(s)) == Some(s)
  {
    EncodeBytes(s);
    Utf8RoundTrip(s);
  }

  lemma EncodeInjective(s: string, t: string)
    requires EncodeURIComponent(s) == EncodeURIComponent(t)
    ensures s == t
  {
    EncodeRoundTrip(s);
    EncodeRoundTrip(t);
  }
}
